=== FILE: README.md ===
# HeadDatabaseWall head-wall sessions in Dafny

HeadDatabaseWall shows the heads of a head database to a player as a wall of
fake blocks. The blocks exist only on that player's client. A **session**
belongs to one viewer:

- it plans a wall in front of the viewer;
- it paints the wall and, once, clears a viewing box that runs from the block
  in front of the heads to one block behind the viewer;
- it draws the heads of the current page on the cells in front of the wall;
- it turns pages with wrap-around;
- it repaints whatever the client tries to break or build;
- on close, it sends the real blocks back.

The **registry** keeps one session per player. It decides what happens on
scrolling, sneaking, quitting, leaving the area and shutdown, and on the
block-interaction packets it intercepts. The head interaction those packets
trigger is debounced by a single time stamp that all players share; the
acknowledgement, the cancel and the repaint happen for every packet.

The model consists of these modules:

- `World`: block faces, integer blocks, real-valued locations and
  materials.
- `Geometry`: how the yaw is quantised to a facing and rotated to its left
  orthogonal, and the layout of wall, head and viewing-box cells.
- `CoordinateKey`: the packed 64-bit block key.
- `WallSession`: the session as an immutable record with state-transition
  functions that return the packets they send.
- `SessionRegistry`: the registry's decisions.
- `Wrappers` and `Arithmetic`: helpers.

Notes on the model:

- **Restore routines.** Each captured routine is a value (`Restore`).
  Running it gives the packets it re-sends.
- **Live blocks.** The block the world really holds, which the source reads
  when it sends a block back, is the symbolic `BlockData.Live`.
- **Anchor.** Bukkit's `Location.add` moves its receiver. So the point the
  source calls `bottomCenter` ends at the bottom-left corner of the wall, and
  `distanceSquaredTo` measures from there. The model keeps one `anchor`.
- **Key range.** Lemmas about what a show leaves behind require `Keyable`:
  every cell of the layout lies inside the range where the key is injective.
  The source does not check this.
- **Stale routine in a cleared slot.** A slot that a show clears keeps the
  restore routine of the head it showed before. After paging to a page where
  the slot is empty, manipulating that block sends the old head again, even
  though `getHeadAtLocation` reports nothing there
  (`ClearedSlotReplaysPreviousHead`).
- **Key comment.** The comment in `fastCoordinateHash` says horizontal
  coordinates of ±67,108,864 are safe. The key keeps blocks apart only for
  -67,108,864 to 67,108,863. At 67,108,864 it collides with 0
  (`KeyCollidesOutsideRange`, `KeyInjective`).
- **Paging.** Paging wraps around: from the last page forwards to the first,
  and from the first backwards to the last. It does not clamp.
- **Close.** `close` resets both flags but clears neither index.

The registry creates its sessions with the five-argument constructor of
`HeadWallSession.java`. The registry file itself calls a four-argument
constructor from another revision.

## Model

| member | source | states |
|---|---|---|
| World.Opposite | src/main/java/me/blvckbytes/head_database_wall/HeadWallSession.java:102-103 | the opposite face negates the step vector and is cardinal exactly when the face is |
| World.OppositeUnique | src/main/java/me/blvckbytes/head_database_wall/HeadWallSession.java:102-103 | the opposite face is the only face whose steps are the negated steps |
| Geometry.LookingFace | src/main/java/me/blvckbytes/head_database_wall/HeadWallSession.java:172-190 | the yaw picks a cardinal face: West exactly on [45,135], East exactly on [-135,-45], South exactly on (-45,45), North otherwise; the earlier checks win at 45 and -45 |
| Geometry.LeftOrthogonal | src/main/java/me/blvckbytes/head_database_wall/HeadWallSession.java:152-170 | defined exactly for the four cardinal faces (other faces are the error case); the result is cardinal and perpendicular to the face, turned to its left |
| Geometry.LeftOrthogonalFourTimes | src/main/java/me/blvckbytes/head_database_wall/HeadWallSession.java:152-170 | turning left four times gives back the face |
| Geometry.LeftOrthogonalUnique | src/main/java/me/blvckbytes/head_database_wall/HeadWallSession.java:152-170 | the left orthogonal is the only cardinal face perpendicular to the face on its left side |
| Geometry.Plan | src/main/java/me/blvckbytes/head_database_wall/HeadWallSession.java:78-100 | the planned wall faces the viewer's looking face; its anchor is in the viewer's world at the viewer's height, distance + 1 blocks ahead and columns / 2 blocks to the left |
| Geometry.CellIsBlockOfLocation | src/main/java/me/blvckbytes/head_database_wall/HeadWallSession.java:112-133 | a cell is the block of the location the source reaches by the same chain of whole-block offsets from the anchor |
| Geometry.CellInjective | src/main/java/me/blvckbytes/head_database_wall/HeadWallSession.java:108-136 | distinct (row, column, depth) positions are distinct blocks |
| Geometry.RoleOfCell | src/main/java/me/blvckbytes/head_database_wall/HeadWallSession.java:108-136 | every grid position has exactly the role of its depth: wall at 0, head at 1, viewing box from 2 on |
| Geometry.Walls | src/main/java/me/blvckbytes/head_database_wall/HeadWallSession.java:76 | there are rows * columns wall locations |
| Geometry.Boxes | src/main/java/me/blvckbytes/head_database_wall/HeadWallSession.java:81-83 | there are rows * columns * (distance + 1) viewing-box locations |
| Geometry.WallsAreWallCells | src/main/java/me/blvckbytes/head_database_wall/HeadWallSession.java:108-124 | a block is a wall location exactly when it is a wall cell of the layout |
| Geometry.WallsDistinct | src/main/java/me/blvckbytes/head_database_wall/HeadWallSession.java:108-124 | no wall location is listed twice |
| Geometry.BoxesAreViewingBoxCells | src/main/java/me/blvckbytes/head_database_wall/HeadWallSession.java:127-134 | a block is a viewing-box location exactly when it is a cell at depth 2 to distance + 2 |
| Geometry.BoxesDistinct | src/main/java/me/blvckbytes/head_database_wall/HeadWallSession.java:127-134 | no viewing-box location is listed twice |
| Geometry.HeadInFrontOfWall | src/main/java/me/blvckbytes/head_database_wall/HeadWallSession.java:118-122 | each head cell is its wall cell moved one block against the looking face |
| Geometry.HeadSlots | src/main/java/me/blvckbytes/head_database_wall/HeadWallSession.java:331-341 | there are page-size head slots |
| Geometry.HeadSlotsAreHeadCells | src/main/java/me/blvckbytes/head_database_wall/HeadWallSession.java:331-341 | the slots are exactly the head cells, with no cell visited twice |
| Geometry.SlotAssignment | src/main/java/me/blvckbytes/head_database_wall/HeadWallSession.java:331-341 | slots run from the top row down and columns left to right: the head cell at (row, column) has exactly one slot, (rows - 1 - row) * columns + column |
| Geometry.ViewerCell | src/main/java/me/blvckbytes/head_database_wall/HeadWallSession.java:78-100 | the viewer's own block is the middle column's bottom cell at depth distance + 1 |
| Geometry.ViewerStandsInViewingBox | src/main/java/me/blvckbytes/head_database_wall/HeadWallSession.java:80-83 | the viewing box includes the viewer's block whenever the gap to the wall is at least one block |
| CoordinateKey.Key | src/main/java/me/blvckbytes/head_database_wall/HeadWallSession.java:343-360 | the key is a signed 64-bit value whose low ten bits are (y + 128) mod 1024 |
| CoordinateKey.KeyBitsLayout | src/main/java/me/blvckbytes/head_database_wall/HeadWallSession.java:352-359 | the height, x and z fields occupy disjoint bits and can be read back by division and remainder |
| CoordinateKey.DecodeKey | src/main/java/me/blvckbytes/head_database_wall/HeadWallSession.java:343-360 | for y in -128..895 and x, z in -2^26..2^26-1, decoding the key gives back the block |
| CoordinateKey.KeyInjective | src/main/java/me/blvckbytes/head_database_wall/HeadWallSession.java:343-360 | in that range, distinct blocks have distinct keys |
| CoordinateKey.KeyCollidesOutsideRange | src/main/java/me/blvckbytes/head_database_wall/HeadWallSession.java:346 | one step outside the range keys collide: x = 2^26 with 0, x = -2^26 - 1 with -1, z = 2^26 with 0, y = 896 with -128 |
| WallSession.NumberOfPages | src/main/java/me/blvckbytes/head_database_wall/HeadWallSession.java:72-73 | at least one page, and exactly one for an empty catalogue; the pages hold every head, and without the last page they would not |
| WallSession.NewSession | src/main/java/me/blvckbytes/head_database_wall/HeadWallSession.java:56-137 | a new session is on its first page, valid, with nothing painted and both indices empty; its layout is the plan in front of the viewer |
| WallSession.CurrentPageNumber | src/main/java/me/blvckbytes/head_database_wall/HeadWallSession.java:148-150 | the page shown to the player is the zero-based current page plus one, so between 1 and the number of pages |
| WallSession.FirstIndex | src/main/java/me/blvckbytes/head_database_wall/HeadWallSession.java:263 | slot 0 shows index currentPage * pageSize, which lies inside the catalogue unless the catalogue is empty |
| WallSession.FootprintKeysDistinct | src/main/java/me/blvckbytes/head_database_wall/HeadWallSession.java:125-140 | in a keyable layout, distinct blocks of the footprint have distinct keys |
| WallSession.PaintAll | src/main/java/me/blvckbytes/head_database_wall/HeadWallSession.java:139-142 | capturing routines for a list of cells adds exactly their keys and leaves every other key's routine alone |
| WallSession.PaintAllPaints | src/main/java/me/blvckbytes/head_database_wall/HeadWallSession.java:139-142 | with distinct keys, every listed cell ends up with the routine that repaints it |
| WallSession.DrawSlots | src/main/java/me/blvckbytes/head_database_wall/HeadWallSession.java:262-307 | the head pass sends one packet per slot plus one more for each slot that has a head to show |
| WallSession.DrawSlotsFrame | src/main/java/me/blvckbytes/head_database_wall/HeadWallSession.java:262-307 | the head pass leaves both indices alone at every key that is not a slot's key |
| WallSession.DrawSlotsDraws | src/main/java/me/blvckbytes/head_database_wall/HeadWallSession.java:262-307 | slot s gets head first + s and its redraw routine when that index exists; otherwise its head entry is removed and its earlier routine stays |
| WallSession.Show | src/main/java/me/blvckbytes/head_database_wall/HeadWallSession.java:247-308 | show keeps the session valid, sets both flags and changes nothing but the indices; it sends rows * columns * (distance + 2) paints on the first call only, then one packet per slot and one more per filled slot (what those packets are: ShowSentSplit and SentSlot) |
| WallSession.HeadPackets | src/main/java/me/blvckbytes/head_database_wall/HeadWallSession.java:262-306 | the packets of a head pass over the given cells: one per slot, plus one per slot whose catalogue index exists |
| WallSession.DrawSlotsSent | src/main/java/me/blvckbytes/head_database_wall/HeadWallSession.java:262-306 | the head pass sends exactly each slot's packets in slot order: air past the end of the catalogue, otherwise the head block facing the viewer and then the head's texture |
| WallSession.HeadPacketsPrefix | src/main/java/me/blvckbytes/head_database_wall/HeadWallSession.java:262-306 | the packets for the first m slots are a prefix of the packets for all slots |
| WallSession.HeadPacketsSends | src/main/java/me/blvckbytes/head_database_wall/HeadWallSession.java:262-306 | slot i's packets sit at offset i plus the number of filled slots before it |
| WallSession.ShowSentSplit | src/main/java/me/blvckbytes/head_database_wall/HeadWallSession.java:247-306 | show sends the wall and air paints of a first show, then exactly the head pass's packets |
| WallSession.SentSlot | src/main/java/me/blvckbytes/head_database_wall/HeadWallSession.java:265-306 | after any prefix of paints, a slot's packets sit right after the prefix, at that slot's offset in the head pass: air when the index first + slot is past the end, otherwise the head block and then its texture |
| WallSession.ShowDrawsCurrentPage | src/main/java/me/blvckbytes/head_database_wall/HeadWallSession.java:262-273 | after show, slot s holds head currentPage * pageSize + s when it exists; otherwise it holds no head and the block keeps its earlier routine |
| WallSession.ShowFrame | src/main/java/me/blvckbytes/head_database_wall/HeadWallSession.java:248-259 | show touches no head entry outside the slots, and once the wall is painted no routine outside the slots either |
| WallSession.FirstShowPaintsCell | src/main/java/me/blvckbytes/head_database_wall/HeadWallSession.java:248-259 | after the first show a wall cell repaints the wall material and a viewing-box cell repaints air |
| WallSession.FirstShowPaintsAuxiliary | src/main/java/me/blvckbytes/head_database_wall/HeadWallSession.java:248-259 | the first show gives all wall and viewing-box cells their routines and sends the wall paints, then the air paints, before anything else |
| WallSession.Following | src/main/java/me/blvckbytes/head_database_wall/HeadWallSession.java:192-196 | the next page is page + 1 modulo the number of pages, so it stays in range |
| WallSession.Preceding | src/main/java/me/blvckbytes/head_database_wall/HeadWallSession.java:201-206 | the previous page is page - 1 modulo the number of pages, so it stays in range |
| WallSession.NextPage | src/main/java/me/blvckbytes/head_database_wall/HeadWallSession.java:192-199 | nextPage keeps the session valid, moves to the following page, keeps viewer, catalogue and layout, and shows that page |
| WallSession.PreviousPage | src/main/java/me/blvckbytes/head_database_wall/HeadWallSession.java:201-208 | previousPage keeps the session valid, moves to the preceding page, keeps viewer, catalogue and layout, and shows that page |
| WallSession.PagingRoundTrip | src/main/java/me/blvckbytes/head_database_wall/HeadWallSession.java:192-208 | a page forwards then back, or back then forwards, returns to the same page |
| WallSession.Close | src/main/java/me/blvckbytes/head_database_wall/HeadWallSession.java:310-329 | close clears both flags and leaves everything else, indices included; every packet re-sends a live block, as many as were painted |
| WallSession.CloseTwice | src/main/java/me/blvckbytes/head_database_wall/HeadWallSession.java:310-329 | a second close sends nothing and changes nothing |
| WallSession.CloseAfterShowRestoresFootprint | src/main/java/me/blvckbytes/head_database_wall/HeadWallSession.java:310-329 | closing a shown session re-sends the live block of every wall, head and viewing-box cell and of no other block |
| WallSession.TryBlockManipulate | src/main/java/me/blvckbytes/head_database_wall/HeadWallSession.java:236-245 | a block with a routine is repainted by it; any other block is re-sent live |
| WallSession.HeadAt | src/main/java/me/blvckbytes/head_database_wall/HeadWallSession.java:217-222 | no head in another world; otherwise the head indexed under the location's block key, if any |
| WallSession.DistanceSquaredTo | src/main/java/me/blvckbytes/head_database_wall/HeadWallSession.java:210-215 | -1 exactly for another world; otherwise non-negative, and zero at the anchor |
| WallSession.HeadAtShownSlot | src/main/java/me/blvckbytes/head_database_wall/HeadWallSession.java:217-222 | after show, a location in slot s's head cell finds head currentPage * pageSize + s, or nothing past the catalogue's end |
| WallSession.ManipulatingHeadCell | src/main/java/me/blvckbytes/head_database_wall/HeadWallSession.java:236-245 | after show, manipulating a filled slot's cell redraws its head and texture; for an empty slot it does what it did before the show |
| WallSession.ManipulatingDrawnSlot | src/main/java/me/blvckbytes/head_database_wall/HeadWallSession.java:303-306 | a drawn slot's routine re-sends the head block facing the viewer and then its texture |
| WallSession.ClearedSlotReplaysPreviousHead | src/main/java/me/blvckbytes/head_database_wall/HeadWallSession.java:265-268 | after paging to a page where a shown slot is empty, its head entry is gone but manipulating it re-sends the old head |
| WallSession.ManipulatingAuxiliaryCell | src/main/java/me/blvckbytes/head_database_wall/HeadWallSession.java:236-257 | after the first show, manipulating a wall cell repaints the wall material and a viewing-box cell repaints air |
| WallSession.LaterShowKeepsAuxiliary | src/main/java/me/blvckbytes/head_database_wall/HeadWallSession.java:249-250 | a later show changes no wall or viewing-box routine |
| WallSession.ShowLeavesOutsideAlone | src/main/java/me/blvckbytes/head_database_wall/HeadWallSession.java:243-245 | a show from empty indices gives no in-key-range block outside the footprint a routine, so manipulating it re-sends it live; outside the key range a block can share a footprint cell's key |
| SessionRegistry.Empty | src/main/java/me/blvckbytes/head_database_wall/HeadWallSessionRegistry.java:41-46 | the registry starts with no sessions and stamp 0 |
| SessionRegistry.CreateAndRegister | src/main/java/me/blvckbytes/head_database_wall/HeadWallSessionRegistry.java:283-293 | nothing and no change for a player with a session; otherwise exactly one new entry, a fresh session with the fixed parameters; consistency is kept |
| SessionRegistry.SweepDistance | src/main/java/me/blvckbytes/head_database_wall/HeadWallSessionRegistry.java:269-281 | exactly the sessions whose viewer's location measures at most 100 stay, unchanged; exactly the others are closed, and their close packets are returned |
| SessionRegistry.OtherWorldNeverSwept | src/main/java/me/blvckbytes/head_database_wall/HeadWallSessionRegistry.java:272-275 | a viewer in another world than its wall measures -1 and is never swept |
| SessionRegistry.SweepIdempotent | src/main/java/me/blvckbytes/head_database_wall/HeadWallSessionRegistry.java:269-281 | a second sweep with the viewers in place closes nothing and keeps the registry |
| SessionRegistry.SweepKeepsConsistent | src/main/java/me/blvckbytes/head_database_wall/HeadWallSessionRegistry.java:269-281 | the sweep keeps every session under its viewer and valid |
| SessionRegistry.OnShutdown | src/main/java/me/blvckbytes/head_database_wall/HeadWallSessionRegistry.java:359-364 | every session is closed and the map is left empty |
| SessionRegistry.OnQuit | src/main/java/me/blvckbytes/head_database_wall/HeadWallSessionRegistry.java:316-319 | only the quitting player's entry goes, without a close; everything else stays |
| SessionRegistry.OnSneak | src/main/java/me/blvckbytes/head_database_wall/HeadWallSessionRegistry.java:321-331 | releasing sneak, or sneaking without a session, changes nothing and closes nothing |
| SessionRegistry.SneakClosesOwnSession | src/main/java/me/blvckbytes/head_database_wall/HeadWallSessionRegistry.java:321-331 | starting to sneak closes exactly the player's own session and drops only its entry |
| SessionRegistry.Turn | src/main/java/me/blvckbytes/head_database_wall/HeadWallSessionRegistry.java:338-344 | forwards goes to the following page, backwards to the preceding one, and the session stays valid |
| SessionRegistry.OnScroll | src/main/java/me/blvckbytes/head_database_wall/HeadWallSessionRegistry.java:333-347 | a higher new hotbar slot turns forwards, anything else backwards; only the scrolling player's session changes, and the notice carries the new page number and the page count |
| SessionRegistry.DirectionToFace | src/main/java/me/blvckbytes/head_database_wall/HeadWallSessionRegistry.java:258-267 | every wire direction maps to the same-named face, never to Self |
| SessionRegistry.DirectionFaceRoundTrip | src/main/java/me/blvckbytes/head_database_wall/HeadWallSessionRegistry.java:258-267 | the mapping is a bijection between the six directions and the six faces other than Self |
| SessionRegistry.DirectionToFaceInjective | src/main/java/me/blvckbytes/head_database_wall/HeadWallSessionRegistry.java:258-267 | distinct directions map to distinct faces |
| SessionRegistry.ResolveTarget | src/main/java/me/blvckbytes/head_database_wall/HeadWallSessionRegistry.java:186-234 | a dig acts on the clicked block as a left click; a use on a block acts on the neighbour behind the clicked face when the held item builds, else on the clicked block, and the click lands on the clicked block; a use in the air has no target |
| SessionRegistry.Interact | src/main/java/me/blvckbytes/head_database_wall/HeadWallSessionRegistry.java:295-314 | no head at the location gives the hint; otherwise a left click grants the head and a right click shows its details |
| SessionRegistry.CornerOf | src/main/java/me/blvckbytes/head_database_wall/HeadWallSessionRegistry.java:191-194 | the location built from a block position lies in that block |
| SessionRegistry.OnPacketReceiving | src/main/java/me/blvckbytes/head_database_wall/HeadWallSessionRegistry.java:166-256 | without a session nothing happens; with one, the packet is cancelled, the acknowledgement goes first, the target block is repainted, and the interaction runs exactly when there is a target and 250 ms have passed, which alone moves the stamp |
| SessionRegistry.ReceivingKeepsConsistent | src/main/java/me/blvckbytes/head_database_wall/HeadWallSessionRegistry.java:166-256 | intercepted packets keep every session filed under its viewer and valid |
| SessionRegistry.DebounceWindow | src/main/java/me/blvckbytes/head_database_wall/HeadWallSessionRegistry.java:244-251 | after an interaction at t, the next one, by any player, runs exactly when it comes at t + 250 or later |
| SessionRegistry.DroppedInteractionKeepsWindow | src/main/java/me/blvckbytes/head_database_wall/HeadWallSessionRegistry.java:247-251 | clicks at t, t + 200 and t + 260 run the first and third: a dropped click does not restart the window |
| SessionRegistry.BuildingOnWallTargetsHeadCell | src/main/java/me/blvckbytes/head_database_wall/HeadWallSessionRegistry.java:214-229 | building against the viewer-facing side of a wall cell targets the head cell in front of it, while the click lands on the wall cell |
| SessionRegistry.ClickingWallFindsNoHead | src/main/java/me/blvckbytes/head_database_wall/HeadWallSessionRegistry.java:296-301 | clicking a wall cell after the first show finds no head and gives the hint |
| SessionRegistry.FortyFiveHeads | src/main/java/me/blvckbytes/head_database_wall/HeadWallSessionRegistry.java:39 | with the fixed parameters, 45 heads make 2 pages. The first show sends 280 packets. Turning forwards shows page 2 with 5 heads in 45 packets, and turning again wraps to page 1. Turning backwards from page 1 wraps to page 2 |

## Left out

- Packet construction is left out: block-data conversion, the skull-texture NBT payload, tile-entity types and `sendServerPacket`. These are foreign library calls. Packets are values (`BlockChange`, `SkullTexture`, `Ack`) and their order within one operation is kept.
- The reflective lookup of the server's block-data handle and its fallback to air are left out. They are runtime reflection over classes that are not available.
- The blocks the world really holds are the symbolic `Live`. The world itself is not modelled.
- Yaw and coordinates are exact reals, not `float`/`double`. A NaN yaw, which the source would turn to NORTH, is not representable.
- 32-bit overflow is not modelled: of block coordinates, of `(y + 128)` (its low ten bits survive wrap-around anyway), and of `rows * columns`.
- The registry's `HashMap` is touched from the packet thread and the main thread. Concurrency and the order in which the sweep and shutdown visit sessions are not modelled. Per-player packets are returned as a map.
- `onPacketSending` is left out. It is the suppression of outgoing block changes through `areCoordinatesPartOfSession`, and `HeadWallSession.java` does not define that method.
- A null player in `tryAccessSession` is left out. Players are ids.
- Chat text, granting the head item and re-setting the held item are left out. They are represented by the `Interaction` and `Navigated` values.
- The command, plugin wiring, permissions and the communicator interface are not part of this model.
- The clock is the parameter `now`. The source reads it twice, for the check and for the new stamp. The model uses the same value for both.
- SessionRegistry.OnPacketReceiving: assumes every foreign call before the cancel succeeds (reading the held item, building and sending the ack, repainting the manipulated block). The source catches any exception thrown there and only logs it. On that path the client's packet is not cancelled and the interaction does not run. The model does not have this path and always cancels the packet of a viewer with a session.
- WallSession.DistanceSquaredTo: states that the squared distance is non-negative and zero at the anchor, but not that it is zero only there. That direction needs nonlinear real reasoning.

=== FILE: arithmetic.dfy ===
/** Facts about flat indices into row-major grids: division and remainder
    recover the row and column, and in-range rows and columns give in-range
    indices. */
module Arithmetic {

  /** Index q * d + r with 0 <= r < d is row q, column r of a grid d wide. */
  lemma DivModOfFlat(q: int, r: int, d: int)
    requires d > 0 && 0 <= r < d
    ensures (q * d + r) / d == q && (q * d + r) % d == r
  {
    var j := q * d + r;
    var q' := j / d;
    var r' := j % d;
    assert j == q' * d + r';
    assert (q - q') * d == r' - r;
    if q - q' >= 1 {
      MulAtLeast(q - q', d);
    } else if q - q' <= -1 {
      MulAtLeast(q' - q, d);
    }
  }

  lemma MulAtLeast(a: int, d: int)
    requires a >= 1 && d > 0
    ensures a * d >= d
  {
  }

  /** A flat index below h * width lies in one of the first h rows. */
  lemma RowOfIndexBound(i: int, h: int, width: int)
    requires width > 0 && 0 <= i < h * width
    ensures 0 <= i / width < h
  {
    var q := i / width;
    assert i == q * width + i % width;
    if q >= h {
      MulMono(h, q, width);
    }
  }

  lemma MulMono(a: int, b: int, d: int)
    requires a <= b && d >= 0
    ensures a * d <= b * d
  {
  }

  /** A grid point in the first h rows has a flat index below h * width. */
  lemma FlatBound(r: int, c: int, h: int, width: int)
    requires 0 <= r < h && 0 <= c < width
    ensures 0 <= r * width + c < h * width
  {
    MulMono(r, h - 1, width);
  }
}

=== FILE: coordinate_key.dfy ===
/** fastCoordinateHash: the 64-bit key under which a session indexes the
    blocks it paints. Ten bits hold the biased height, then 27 bits each for
    x and z: 26 low bits of the coordinate's two's complement and one flag
    that is set for negative values. The three fields occupy disjoint bits,
    so the source's bitwise or is the sum written here. */
module CoordinateKey {
  import opened World
  import opened Arithmetic

  const Y_BIAS: int := 128
  /** 2^10: the span of the height field. */
  const Y_SPAN: int := 0x400
  /** 2^26: the span of the magnitude bits of a horizontal field. */
  const AXIS_MAGNITUDE: int := 0x400_0000
  /** 2^27: the span of a horizontal field including its sign flag. */
  const AXIS_SPAN: int := 0x800_0000
  /** 2^37: where the z field starts. */
  const Z_SHIFT_SPAN: int := 0x20_0000_0000
  const TWO_63: int := 0x8000_0000_0000_0000
  const TWO_64: int := 0x1_0000_0000_0000_0000

  /** (y + 128) & 0x3FF. The sum may wrap in 32-bit arithmetic, but 2^32 is a
      multiple of 2^10, so the low ten bits are the mathematical remainder. */
  function YField(y: int): int {
    (y + Y_BIAS) % Y_SPAN
  }

  /** (v & 0x3FFFFFF) | (v < 0 ? 0x4000000 : 0): masking a two's complement
      value keeps its non-negative remainder modulo 2^26. */
  function AxisField(v: int): int {
    v % AXIS_MAGNITUDE + (if v < 0 then AXIS_MAGNITUDE else 0)
  }

  /** The 64 key bits read as an unsigned number. */
  function KeyBits(b: Block): int {
    YField(b.y) + AxisField(b.x) * Y_SPAN + AxisField(b.z) * Z_SHIFT_SPAN
  }

  /** The key as the Java long it is: the z field reaches bit 63, so blocks
      with negative z get negative keys. */
  function Key(b: Block): (k: int)
    ensures -TWO_63 <= k < TWO_63
    ensures k % Y_SPAN == (b.y + Y_BIAS) % Y_SPAN
  {
    KeyBitsLayout(b);
    var u := KeyBits(b);
    if u >= TWO_63 then u - TWO_64 else u
  }

  /** The fields split apart again by division and remainder. */
  lemma KeyBitsLayout(b: Block)
    ensures 0 <= KeyBits(b) < TWO_64
    ensures KeyBits(b) % Y_SPAN == YField(b.y)
    ensures (KeyBits(b) / Y_SPAN) % AXIS_SPAN == AxisField(b.x)
    ensures KeyBits(b) / Z_SHIFT_SPAN == AxisField(b.z)
  {
    var yf, xf, zf := YField(b.y), AxisField(b.x), AxisField(b.z);
    var low := xf * Y_SPAN + yf;
    FlatBound(xf, yf, AXIS_SPAN, Y_SPAN);
    DivModOfFlat(zf, low, Z_SHIFT_SPAN);
    assert KeyBits(b) == (xf + zf * AXIS_SPAN) * Y_SPAN + yf;
    DivModOfFlat(xf + zf * AXIS_SPAN, yf, Y_SPAN);
    DivModOfFlat(zf, xf, AXIS_SPAN);
  }

  /** The coordinates the key keeps apart: heights -128 .. 895 and horizontal
      coordinates -2^26 .. 2^26 - 1. */
  predicate InKeyRange(b: Block) {
    && -AXIS_MAGNITUDE <= b.x < AXIS_MAGNITUDE
    && -Y_BIAS <= b.y < Y_SPAN - Y_BIAS
    && -AXIS_MAGNITUDE <= b.z < AXIS_MAGNITUDE
  }

  /** Reads a horizontal coordinate back from its 27-bit field. */
  function AxisOf(f: int): int {
    if f >= AXIS_MAGNITUDE then f - AXIS_SPAN else f
  }

  /** Reads a block back from a key. */
  function Decode(k: int): Block {
    var u := k % TWO_64;
    Block(AxisOf((u / Y_SPAN) % AXIS_SPAN), u % Y_SPAN - Y_BIAS, AxisOf(u / Z_SHIFT_SPAN))
  }

  lemma AxisRoundTrip(v: int)
    requires -AXIS_MAGNITUDE <= v < AXIS_MAGNITUDE
    ensures AxisOf(AxisField(v)) == v
  {
  }

  /** Decoding a key gives back the block, for every block in range. */
  lemma DecodeKey(b: Block)
    requires InKeyRange(b)
    ensures Decode(Key(b)) == b
  {
    KeyBitsLayout(b);
    assert Key(b) % TWO_64 == KeyBits(b);
    AxisRoundTrip(b.x);
    AxisRoundTrip(b.z);
  }

  /** Within range, distinct blocks have distinct keys. */
  lemma KeyInjective(a: Block, b: Block)
    requires InKeyRange(a) && InKeyRange(b)
    requires Key(a) == Key(b)
    ensures a == b
  {
    DecodeKey(a);
    DecodeKey(b);
  }

  /** The range is tight. The comment in fastCoordinateHash promises +-67,108,864 (2^26),
      but x = 2^26 shares its key with x = 0; one step beyond either end of
      the horizontal range, or above height 895, keys collide. */
  lemma KeyCollidesOutsideRange()
    ensures Key(Block(AXIS_MAGNITUDE, 0, 0)) == Key(Block(0, 0, 0))
    ensures Key(Block(-AXIS_MAGNITUDE - 1, 0, 0)) == Key(Block(-1, 0, 0))
    ensures Key(Block(0, 0, AXIS_MAGNITUDE)) == Key(Block(0, 0, 0))
    ensures Key(Block(0, Y_SPAN - Y_BIAS, 0)) == Key(Block(0, -Y_BIAS, 0))
  {
  }
}

=== FILE: geometry.dfy ===
/** Planning a head wall in front of a viewer (HeadWallSession's constructor,
    decideLookingFace and decideLeftOrthogonal): the facing, the anchor and the
    integer cells of the wall, of the heads in front of it and of the viewing
    box, which runs from the block in front of the heads to one block behind
    the viewer. */
module Geometry {
  import opened Wrappers
  import opened World
  import opened Arithmetic

  /** decideLookingFace: the yaw (in degrees) is quantised to a cardinal face.
      The checks run in order, so the shared boundaries 45 and -45 go to WEST
      and EAST respectively. */
  function LookingFace(yaw: real): (r: BlockFace)
    ensures IsCardinal(r)
    ensures r == West <==> 45.0 <= yaw <= 135.0
    ensures r == East <==> -135.0 <= yaw <= -45.0
    ensures r == South <==> -45.0 < yaw < 45.0
    ensures r == North <==> yaw < -135.0 || 135.0 < yaw
  {
    if 45.0 <= yaw <= 135.0 then West
    else if -135.0 <= yaw <= -45.0 then East
    else if -45.0 <= yaw <= 45.0 then South
    else North
  }

  /** decideLeftOrthogonal: the face a quarter turn counter-clockwise (seen from
      above) of a cardinal face; any other face is an error, modelled as None. */
  function LeftOrthogonal(f: BlockFace): (r: Option<BlockFace>)
    ensures r.Some? <==> IsCardinal(f)
    ensures r.Some? ==> IsCardinal(r.value)
    ensures r.Some? ==> ModX(f) * ModX(r.value) + ModZ(f) * ModZ(r.value) == 0
    ensures r.Some? ==> ModX(f) * ModZ(r.value) - ModZ(f) * ModX(r.value) == -1
  {
    match f
    case North => Some(West)
    case West => Some(South)
    case South => Some(East)
    case East => Some(North)
    case _ => None
  }

  /** Four quarter turns are the identity. */
  lemma LeftOrthogonalFourTimes(f: BlockFace)
    requires IsCardinal(f)
    ensures var l1 := LeftOrthogonal(f).value;
            var l2 := LeftOrthogonal(l1).value;
            var l3 := LeftOrthogonal(l2).value;
            LeftOrthogonal(l3) == Some(f)
  {
  }

  /** The left orthogonal is the only cardinal face perpendicular to `f` and a
      counter-clockwise quarter turn away from it. */
  lemma LeftOrthogonalUnique(f: BlockFace, l: BlockFace)
    requires IsCardinal(f) && IsCardinal(l)
    requires ModX(f) * ModX(l) + ModZ(f) * ModZ(l) == 0
    requires ModX(f) * ModZ(l) - ModZ(f) * ModX(l) == -1
    ensures LeftOrthogonal(f) == Some(l)
  {
  }

  /** HeadWallParameters: grid size, the gap between the viewer and the wall,
      and the material the wall is painted with. */
  datatype Params = Params(rows: int, columns: int, distance: int, wallType: Material)

  /** What the constructor needs to run without an exception: a non-empty
      grid (the page count divides the head count by the page size) and a viewing box of
      non-negative depth `distance + 1`. */
  predicate ValidParams(p: Params) {
    p.rows >= 1 && p.columns >= 1 && p.distance >= -1
  }

  function PageSize(p: Params): int {
    p.rows * p.columns
  }

  /** Number of viewing-box cells per grid slot. */
  function BoxDepth(p: Params): int {
    p.distance + 1
  }

  /** A planned wall. `anchor` is the bottom-left corner of the wall: the
      source names it bottomCenter, but Location.add moves its receiver, so the
      second shift (by half the width) lands on the same object. */
  datatype Layout = Layout(params: Params, face: BlockFace, left: BlockFace, anchor: Location)

  predicate WellFormed(g: Layout) {
    ValidParams(g.params) && IsCardinal(g.face) && LeftOrthogonal(g.face) == Some(g.left)
  }

  /** The constructor's geometry: the face comes from the viewer's yaw, the
      anchor is `distance + 1` blocks ahead of the viewer and `columns / 2`
      blocks to the left. */
  function Plan(params: Params, viewer: Location, yaw: real): (g: Layout)
    requires ValidParams(params)
    ensures WellFormed(g)
    ensures g.params == params && g.face == LookingFace(yaw)
    ensures g.anchor.world == viewer.world && g.anchor.y == viewer.y
    ensures var dx := g.anchor.x - viewer.x;
            var dz := g.anchor.z - viewer.z;
            && dx * ModX(g.face) as real + dz * ModZ(g.face) as real == (params.distance + 1) as real
            && dx * ModX(g.left) as real + dz * ModZ(g.left) as real == (params.columns / 2) as real
  {
    var face := LookingFace(yaw);
    var left := LeftOrthogonal(face).value;
    var wallDistance := params.distance + 1;
    var halfWidth := params.columns / 2;
    var bottomCenter := Add(viewer, ModX(face) * wallDistance, 0, ModZ(face) * wallDistance);
    var bottomLeft := Add(bottomCenter, ModX(left) * halfWidth, 0, ModZ(left) * halfWidth);
    Layout(params, face, left, bottomLeft)
  }

  /** A cell of the layout: `row` blocks up, `col` blocks to the right of the
      anchor and `depth` blocks from the wall towards the viewer. Depth 0 is
      the wall, depth 1 the head in front of it, depths 2 to distance + 2 the
      viewing box. */
  datatype GridPoint = GridPoint(row: int, col: int, depth: int)

  function Cell(g: Layout, p: GridPoint): Block {
    var a := BlockOf(g.anchor);
    var right := Opposite(g.left);
    var back := Opposite(g.face);
    Block(a.x + ModX(right) * p.col + ModX(back) * p.depth,
          a.y + p.row,
          a.z + ModZ(right) * p.col + ModZ(back) * p.depth)
  }

  /** The constructor rounds the real locations it builds (a clone of the
      anchor moved by whole blocks) down to blocks; that is exactly Cell. */
  lemma CellIsBlockOfLocation(g: Layout, p: GridPoint)
    ensures var right := Opposite(g.left);
            var back := Opposite(g.face);
            var wall := Add(g.anchor, ModX(right) * p.col, p.row, ModZ(right) * p.col);
            Cell(g, p) == BlockOf(Add(wall, ModX(back) * p.depth, 0, ModZ(back) * p.depth))
  {
    var right := Opposite(g.left);
    var back := Opposite(g.face);
    var wall := Add(g.anchor, ModX(right) * p.col, p.row, ModZ(right) * p.col);
    BlockOfAdd(g.anchor, ModX(right) * p.col, p.row, ModZ(right) * p.col);
    BlockOfAdd(wall, ModX(back) * p.depth, 0, ModZ(back) * p.depth);
  }

  /** The inverse of Cell: reads row, column and depth off a block. */
  function Locate(g: Layout, b: Block): GridPoint {
    var a := BlockOf(g.anchor);
    var right := Opposite(g.left);
    var back := Opposite(g.face);
    var dx := b.x - a.x;
    var dz := b.z - a.z;
    GridPoint(b.y - a.y, ModX(right) * dx + ModZ(right) * dz, ModX(back) * dx + ModZ(back) * dz)
  }

  /** Locating a cell gives back its grid point, so distinct grid points
      are distinct cells. */
  lemma LocateCell(g: Layout, p: GridPoint)
    requires WellFormed(g)
    ensures Locate(g, Cell(g, p)) == p
  {
    match g.face
    case North =>
    case South =>
    case East =>
    case West =>
  }

  lemma CellInjective(g: Layout, p: GridPoint, q: GridPoint)
    requires WellFormed(g)
    requires Cell(g, p) == Cell(g, q)
    ensures p == q
  {
    LocateCell(g, p);
    LocateCell(g, q);
  }

  predicate InGrid(g: Layout, p: GridPoint) {
    0 <= p.row < g.params.rows && 0 <= p.col < g.params.columns && 0 <= p.depth <= g.params.distance + 2
  }

  /** The three disjoint roles a cell of the layout plays. */
  datatype Role = WallCell | HeadCell | ViewingBoxCell

  function RoleOfDepth(depth: int): Role {
    if depth == 0 then WallCell else if depth == 1 then HeadCell else ViewingBoxCell
  }

  /** The role a block plays in the layout, if any. A block has at most one
      role, which is what makes the three cell sets pairwise disjoint. */
  function RoleOf(g: Layout, b: Block): Option<Role> {
    var p := Locate(g, b);
    if InGrid(g, p) && Cell(g, p) == b then Some(RoleOfDepth(p.depth)) else None
  }

  lemma RoleOfCell(g: Layout, p: GridPoint)
    requires WellFormed(g) && InGrid(g, p)
    ensures RoleOf(g, Cell(g, p)) == Some(RoleOfDepth(p.depth))
  {
    LocateCell(g, p);
  }

  /** A block with a role is the cell of the grid point Locate finds. */
  lemma RoleOfLocated(g: Layout, b: Block)
    requires RoleOf(g, b).Some?
    ensures InGrid(g, Locate(g, b)) && Cell(g, Locate(g, b)) == b
    ensures RoleOf(g, b) == Some(RoleOfDepth(Locate(g, b).depth))
  {
  }

  // Flat indices. The source stores the wall row by row, the viewing box
  // row by row with the depths of one slot consecutive, and hands the heads
  // out from the top row down.

  /** The grid point of flat index `i` in a row-major grid of `width` columns. */
  function RowOfIndex(i: int, width: int): int
    requires width > 0
  {
    i / width
  }

  function ColOfIndex(i: int, width: int): int
    requires width > 0
  {
    i % width
  }

  /** The wall cells in the order the constructor stores them. */
  function Walls(g: Layout): (r: seq<Block>)
    requires ValidParams(g.params)
    ensures |r| == PageSize(g.params)
  {
    var cols := g.params.columns;
    seq(PageSize(g.params), i => Cell(g, GridPoint(RowOfIndex(i, cols), ColOfIndex(i, cols), 0)))
  }

  /** The viewing-box cells in the order the constructor stores them: for each
      slot in row-major order, the depths 2 .. distance + 2. */
  function Boxes(g: Layout): (r: seq<Block>)
    requires ValidParams(g.params)
    ensures |r| == PageSize(g.params) * BoxDepth(g.params)
  {
    var cols := g.params.columns;
    var d := BoxDepth(g.params);
    if d == 0 then []
    else
      seq(PageSize(g.params) * d, j =>
        var i := j / d;
        Cell(g, GridPoint(RowOfIndex(i, cols), ColOfIndex(i, cols), j % d + 2)))
  }

  /** The grid point holding slot `s` (forEachHeadLocationTopLeftToBottomRight):
      rows from the top one down, columns left to right. */
  function SlotPoint(g: Layout, s: int): GridPoint
    requires ValidParams(g.params)
  {
    var cols := g.params.columns;
    GridPoint(g.params.rows - 1 - RowOfIndex(s, cols), ColOfIndex(s, cols), 1)
  }

  /** The head cells in slot order. */
  function HeadSlots(g: Layout): (r: seq<Block>)
    requires ValidParams(g.params)
    ensures |r| == PageSize(g.params)
  {
    seq(PageSize(g.params), s => Cell(g, SlotPoint(g, s)))
  }

  /** The slot a head cell is assigned. */
  function SlotOf(g: Layout, row: int, col: int): int {
    (g.params.rows - 1 - row) * g.params.columns + col
  }

  // The cell sequences against the roles.

  /** The wall holds exactly the wall cells, one per grid slot, stored row by
      row. */
  lemma WallsAreWallCells(g: Layout)
    requires WellFormed(g)
    ensures forall b :: b in Walls(g) <==> RoleOf(g, b) == Some(WallCell)
  {
    WallsHaveWallRole(g);
    WallCellsInWalls(g);
  }

  lemma WallsHaveWallRole(g: Layout)
    requires WellFormed(g)
    ensures forall b :: b in Walls(g) ==> RoleOf(g, b) == Some(WallCell)
  {
    forall i | 0 <= i < |Walls(g)|
      ensures RoleOf(g, Walls(g)[i]) == Some(WallCell)
    {
      WallRole(g, i);
    }
  }

  lemma WallCellsInWalls(g: Layout)
    requires WellFormed(g)
    ensures forall b :: RoleOf(g, b) == Some(WallCell) ==> b in Walls(g)
  {
    forall b | RoleOf(g, b) == Some(WallCell)
      ensures b in Walls(g)
    {
      RoleOfLocated(g, b);
      var p := Locate(g, b);
      WallAt(g, p.row, p.col);
    }
  }

  lemma WallAt(g: Layout, r: int, c: int)
    requires WellFormed(g)
    requires 0 <= r < g.params.rows && 0 <= c < g.params.columns
    ensures 0 <= r * g.params.columns + c < PageSize(g.params)
    ensures Walls(g)[r * g.params.columns + c] == Cell(g, GridPoint(r, c, 0))
  {
    FlatBound(r, c, g.params.rows, g.params.columns);
    DivModOfFlat(r, c, g.params.columns);
  }

  lemma WallRole(g: Layout, i: int)
    requires WellFormed(g) && 0 <= i < PageSize(g.params)
    ensures RoleOf(g, Walls(g)[i]) == Some(WallCell)
  {
    var cols := g.params.columns;
    RowOfIndexBound(i, g.params.rows, cols);
    RoleOfCell(g, GridPoint(RowOfIndex(i, cols), ColOfIndex(i, cols), 0));
  }

  /** The viewing box holds exactly the viewing-box cells. */
  lemma BoxesAreViewingBoxCells(g: Layout)
    requires WellFormed(g)
    ensures forall b :: b in Boxes(g) <==> RoleOf(g, b) == Some(ViewingBoxCell)
  {
    BoxesHaveBoxRole(g);
    BoxCellsInBoxes(g);
  }

  lemma BoxesHaveBoxRole(g: Layout)
    requires WellFormed(g)
    ensures forall b :: b in Boxes(g) ==> RoleOf(g, b) == Some(ViewingBoxCell)
  {
    forall j | 0 <= j < |Boxes(g)|
      ensures RoleOf(g, Boxes(g)[j]) == Some(ViewingBoxCell)
    {
      BoxRole(g, j);
    }
  }

  lemma BoxCellsInBoxes(g: Layout)
    requires WellFormed(g)
    ensures forall b :: RoleOf(g, b) == Some(ViewingBoxCell) ==> b in Boxes(g)
  {
    forall b | RoleOf(g, b) == Some(ViewingBoxCell)
      ensures b in Boxes(g)
    {
      RoleOfLocated(g, b);
      var p := Locate(g, b);
      BoxAt(g, p.row, p.col, p.depth);
    }
  }

  /** Viewing-box cell of grid position (r, c) at depth k sits where the
      constructor stores it: the depths of one slot are consecutive. */
  lemma BoxAt(g: Layout, r: int, c: int, k: int)
    requires WellFormed(g)
    requires 0 <= r < g.params.rows && 0 <= c < g.params.columns && 2 <= k <= g.params.distance + 2
    ensures 0 <= (r * g.params.columns + c) * BoxDepth(g.params) + (k - 2) < |Boxes(g)|
    ensures Boxes(g)[(r * g.params.columns + c) * BoxDepth(g.params) + (k - 2)] == Cell(g, GridPoint(r, c, k))
  {
    var cols := g.params.columns;
    var d := BoxDepth(g.params);
    var i := r * cols + c;
    FlatBound(r, c, g.params.rows, cols);
    FlatBound(i, k - 2, PageSize(g.params), d);
    DivModOfFlat(i, k - 2, d);
    DivModOfFlat(r, c, cols);
  }

  lemma BoxRole(g: Layout, j: int)
    requires WellFormed(g) && 0 <= j < |Boxes(g)|
    ensures RoleOf(g, Boxes(g)[j]) == Some(ViewingBoxCell)
  {
    var cols := g.params.columns;
    var d := BoxDepth(g.params);
    RowOfIndexBound(j, PageSize(g.params), d);
    var i := j / d;
    RowOfIndexBound(i, g.params.rows, cols);
    RoleOfCell(g, GridPoint(RowOfIndex(i, cols), ColOfIndex(i, cols), j % d + 2));
  }

  /** Every grid position gets exactly one slot, in 0 .. pageSize - 1, and
      that slot's head cell is the cell in front of the wall at that position. */
  lemma SlotAssignment(g: Layout, row: int, col: int)
    requires WellFormed(g)
    requires 0 <= row < g.params.rows && 0 <= col < g.params.columns
    ensures 0 <= SlotOf(g, row, col) < PageSize(g.params)
    ensures HeadSlots(g)[SlotOf(g, row, col)] == Cell(g, GridPoint(row, col, 1))
    ensures forall s :: 0 <= s < PageSize(g.params) && HeadSlots(g)[s] == Cell(g, GridPoint(row, col, 1)) ==>
              s == SlotOf(g, row, col)
  {
    var cols := g.params.columns;
    var rows := g.params.rows;
    FlatBound(rows - 1 - row, col, rows, cols);
    DivModOfFlat(rows - 1 - row, col, cols);
    forall s | 0 <= s < PageSize(g.params) && HeadSlots(g)[s] == Cell(g, GridPoint(row, col, 1))
      ensures s == SlotOf(g, row, col)
    {
      CellInjective(g, SlotPoint(g, s), GridPoint(row, col, 1));
      assert s == RowOfIndex(s, cols) * cols + ColOfIndex(s, cols);
    }
  }

  /** The head slots hold exactly the head cells, each once. */
  lemma HeadSlotsAreHeadCells(g: Layout)
    requires WellFormed(g)
    ensures forall b :: b in HeadSlots(g) <==> RoleOf(g, b) == Some(HeadCell)
    ensures forall s, t :: 0 <= s < t < PageSize(g.params) ==> HeadSlots(g)[s] != HeadSlots(g)[t]
  {
    var cols := g.params.columns;
    var heads := HeadSlots(g);
    forall b | b in heads
      ensures RoleOf(g, b) == Some(HeadCell)
    {
      var s :| 0 <= s < |heads| && heads[s] == b;
      RowOfIndexBound(s, g.params.rows, cols);
      RoleOfCell(g, SlotPoint(g, s));
    }
    forall b | RoleOf(g, b) == Some(HeadCell)
      ensures b in heads
    {
      RoleOfLocated(g, b);
      var p := Locate(g, b);
      SlotAssignment(g, p.row, p.col);
    }
    forall s, t | 0 <= s < t < PageSize(g.params)
      ensures heads[s] != heads[t]
    {
      if heads[s] == heads[t] {
        RowOfIndexBound(s, g.params.rows, cols);
        var p := SlotPoint(g, s);
        SlotAssignment(g, p.row, p.col);
      }
    }
  }

  /** The head cell of a grid position is one step from its wall cell against
      the facing, towards the viewer. */
  lemma HeadInFrontOfWall(g: Layout, row: int, col: int)
    requires WellFormed(g)
    ensures Step(Cell(g, GridPoint(row, col, 0)), Opposite(g.face), 1) == Cell(g, GridPoint(row, col, 1))
  {
  }

  /** The middle column's bottom cell at depth distance + 1 is the block the
      viewer stands in. */
  lemma ViewerCell(params: Params, viewer: Location, yaw: real)
    requires ValidParams(params)
    ensures Cell(Plan(params, viewer, yaw), GridPoint(0, params.columns / 2, params.distance + 1)) == BlockOf(viewer)
  {
    var g := Plan(params, viewer, yaw);
    var face := g.face;
    var left := g.left;
    var wallDistance := params.distance + 1;
    var halfWidth := params.columns / 2;
    var bottomCenter := Add(viewer, ModX(face) * wallDistance, 0, ModZ(face) * wallDistance);
    BlockOfAdd(viewer, ModX(face) * wallDistance, 0, ModZ(face) * wallDistance);
    BlockOfAdd(bottomCenter, ModX(left) * halfWidth, 0, ModZ(left) * halfWidth);
    match face
    case North =>
    case South =>
    case East =>
    case West =>
  }

  /** The viewing box reaches the viewer: the block the viewer stands in is
      the middle column's bottom cell at depth distance + 1, which is a
      viewing-box cell once the gap to the wall is at least one block. */
  lemma ViewerStandsInViewingBox(params: Params, viewer: Location, yaw: real)
    requires ValidParams(params)
    ensures var g := Plan(params, viewer, yaw);
            && (params.distance >= 1 ==> RoleOf(g, BlockOf(viewer)) == Some(ViewingBoxCell))
            && Cell(g, GridPoint(0, params.columns / 2, params.distance + 1)) == BlockOf(viewer)
  {
    ViewerCell(params, viewer, yaw);
    RoleOfCell(Plan(params, viewer, yaw), GridPoint(0, params.columns / 2, params.distance + 1));
  }

  /** No cell is stored twice in the wall. */
  lemma WallsDistinct(g: Layout, i: int, j: int)
    requires WellFormed(g)
    requires 0 <= i < PageSize(g.params) && 0 <= j < PageSize(g.params) && Walls(g)[i] == Walls(g)[j]
    ensures i == j
  {
    var cols := g.params.columns;
    CellInjective(g, GridPoint(RowOfIndex(i, cols), ColOfIndex(i, cols), 0),
                     GridPoint(RowOfIndex(j, cols), ColOfIndex(j, cols), 0));
  }

  /** No cell is stored twice in the viewing box. */
  lemma BoxesDistinct(g: Layout, i: int, j: int)
    requires WellFormed(g)
    requires 0 <= i < |Boxes(g)| && 0 <= j < |Boxes(g)| && Boxes(g)[i] == Boxes(g)[j]
    ensures i == j
  {
    var cols := g.params.columns;
    var d := BoxDepth(g.params);
    var qi := i / d;
    var qj := j / d;
    CellInjective(g, GridPoint(RowOfIndex(qi, cols), ColOfIndex(qi, cols), i % d + 2),
                     GridPoint(RowOfIndex(qj, cols), ColOfIndex(qj, cols), j % d + 2));
    assert qi == qj;
  }
}

=== FILE: registry.dfy ===
/** HeadWallSessionRegistry: the sessions of all players, keyed by player
    id, and the decisions the registry takes on player events and on the
    client packets it intercepts. Chat messages, inventory changes and
    outgoing packets are returned as values; the clock and the players'
    positions are parameters. */
module SessionRegistry {
  import opened Wrappers
  import World
  import opened Geometry
  import opened WallSession
  import CoordinateKey

  /** An interaction less than this many milliseconds after the last one
      that ran is dropped. */
  const INTERACTION_MIN_DISTANCE_MS: int := 250
  const REMOVAL_DISTANCE_BLOCKS: real := 10.0
  /** A session whose viewer is further from the anchor than this squared
      distance is closed. */
  const REMOVAL_DISTANCE_BLOCKS_SQUARED: real := REMOVAL_DISTANCE_BLOCKS * REMOVAL_DISTANCE_BLOCKS
  /** Every registered session has 5 rows, 8 columns, a gap of 3 blocks and a
      coal wall. */
  const WALL_PARAMETER: Params := Params(5, 8, 3, World.CoalBlock)

  /** The session map and the one interaction stamp all players share. */
  datatype Registry = Registry(sessions: map<PlayerId, Session>, lastInteraction: int)

  /** The registry on plugin start. */
  function Empty(): (r: Registry)
    ensures r.sessions == map[] && r.lastInteraction == 0
  {
    Registry(map[], 0)
  }

  /** Every session is filed under its own viewer and keeps the session
      invariant. */
  predicate Consistent(r: Registry) {
    forall p :: p in r.sessions ==> r.sessions[p].viewer == p && WallSession.Valid(r.sessions[p])
  }

  // Registration and teardown.

  datatype Created = Created(registry: Registry, session: Option<Session>)

  /** createAndRegister: nothing for a player that already has a session;
      otherwise a new session with the fixed wall parameters, planned in
      front of the player, filed under the player's id. */
  function CreateAndRegister(r: Registry, player: PlayerId, at: World.Location, yaw: real, heads: seq<Head>): (c: Created)
    ensures player in r.sessions <==> c.session.None?
    ensures player in r.sessions ==> c.registry == r
    ensures player !in r.sessions ==>
              && c.registry.sessions == r.sessions[player := c.session.value]
              && c.registry.lastInteraction == r.lastInteraction
              && c.session.value == NewSession(player, at, yaw, heads, WALL_PARAMETER)
    ensures Consistent(r) ==> Consistent(c.registry)
  {
    if player in r.sessions then Created(r, None)
    else
      var s := NewSession(player, at, yaw, heads, WALL_PARAMETER);
      Created(r.(sessions := r.sessions[player := s]), Some(s))
  }

  /** The outcome of a teardown: the new registry and, per closed session's
      viewer, the packets its close sent. */
  datatype Teardown = Teardown(registry: Registry, closed: map<PlayerId, seq<Packet>>)

  /** Whether a session stays open with its viewer at `at`: a viewer in
      another world measures -1 and always stays. */
  predicate InReach(s: Session, at: World.Location) {
    DistanceSquaredTo(s, at) <= REMOVAL_DISTANCE_BLOCKS_SQUARED
  }

  /** checkSessionsForDistanceRemoval: close and drop every session whose
      viewer, at `whereIs(viewer)`, is out of reach, and keep the others. */
  function SweepDistance(r: Registry, whereIs: PlayerId -> World.Location): (t: Teardown)
    requires forall p :: p in r.sessions ==> ValidParams(r.sessions[p].layout.params)
    ensures forall p :: p in t.registry.sessions <==> p in r.sessions && InReach(r.sessions[p], whereIs(r.sessions[p].viewer))
    ensures forall p :: p in t.registry.sessions ==> t.registry.sessions[p] == r.sessions[p]
    ensures forall p :: p in t.closed <==> p in r.sessions && !InReach(r.sessions[p], whereIs(r.sessions[p].viewer))
    ensures forall p :: p in t.closed ==> t.closed[p] == Close(r.sessions[p]).sent
    ensures t.registry.lastInteraction == r.lastInteraction
  {
    var kept := map p | p in r.sessions && InReach(r.sessions[p], whereIs(r.sessions[p].viewer)) :: r.sessions[p];
    var closed := map p | p in r.sessions && !InReach(r.sessions[p], whereIs(r.sessions[p].viewer)) :: Close(r.sessions[p]).sent;
    Teardown(r.(sessions := kept), closed)
  }

  /** A viewer in another world than its wall is never swept away. */
  lemma OtherWorldNeverSwept(r: Registry, whereIs: PlayerId -> World.Location, p: PlayerId)
    requires forall q :: q in r.sessions ==> ValidParams(r.sessions[q].layout.params)
    requires p in r.sessions && whereIs(r.sessions[p].viewer).world != r.sessions[p].layout.anchor.world
    ensures p in SweepDistance(r, whereIs).registry.sessions
    ensures p !in SweepDistance(r, whereIs).closed
  {
  }

  /** Sweeping twice with the viewers where they were closes nothing the
      second time and keeps the registry. */
  lemma SweepIdempotent(r: Registry, whereIs: PlayerId -> World.Location)
    requires forall p :: p in r.sessions ==> ValidParams(r.sessions[p].layout.params)
    ensures var once := SweepDistance(r, whereIs).registry;
            var twice := SweepDistance(once, whereIs);
            twice.registry == once && twice.closed == map[]
  {
    var once := SweepDistance(r, whereIs).registry;
    var twice := SweepDistance(once, whereIs);
    assert twice.registry.sessions == once.sessions;
    assert twice.closed.Keys == {};
  }

  /** The sweep keeps the registry consistent. */
  lemma SweepKeepsConsistent(r: Registry, whereIs: PlayerId -> World.Location)
    requires Consistent(r)
    ensures Consistent(SweepDistance(r, whereIs).registry)
  {
  }

  /** onShutdown: close every session and drop them all. */
  function OnShutdown(r: Registry): (t: Teardown)
    requires forall p :: p in r.sessions ==> ValidParams(r.sessions[p].layout.params)
    ensures t.registry.sessions == map[]
    ensures t.closed.Keys == r.sessions.Keys
    ensures forall p :: p in t.closed ==> t.closed[p] == Close(r.sessions[p]).sent
  {
    Teardown(r.(sessions := map[]), map p | p in r.sessions :: Close(r.sessions[p]).sent)
  }

  /** onQuit: drop the player's session without closing it. */
  function OnQuit(r: Registry, player: PlayerId): (q: Registry)
    ensures player !in q.sessions
    ensures forall p :: p != player ==> (p in q.sessions <==> p in r.sessions)
    ensures forall p :: p in q.sessions ==> q.sessions[p] == r.sessions[p]
    ensures Consistent(r) ==> Consistent(q)
  {
    r.(sessions := r.sessions - {player})
  }

  /** onSneak: when the player starts sneaking, close the session and drop
      the entry of the session's viewer; stopping to sneak, or sneaking
      without a session, does nothing. */
  function OnSneak(r: Registry, player: PlayerId, sneaking: bool): (t: Teardown)
    requires player in r.sessions ==> ValidParams(r.sessions[player].layout.params)
    ensures !sneaking || player !in r.sessions ==> t == Teardown(r, map[])
  {
    if !sneaking || player !in r.sessions then Teardown(r, map[])
    else
      var s := r.sessions[player];
      Teardown(r.(sessions := r.sessions - {s.viewer}), map[player := Close(s).sent])
  }

  /** In a consistent registry, sneaking closes exactly the player's session
      and leaves every other one as it was. */
  lemma SneakClosesOwnSession(r: Registry, player: PlayerId)
    requires Consistent(r) && player in r.sessions
    ensures var t := OnSneak(r, player, true);
            && t.registry.sessions == r.sessions - {player}
            && t.closed == map[player := Close(r.sessions[player]).sent]
            && t.registry.lastInteraction == r.lastInteraction
            && Consistent(t.registry)
  {
  }

  // Scrolling.

  /** The chat notice after a page turn: the direction and "page/pages". */
  datatype Navigated = Navigated(forwards: bool, page: int, pages: int)

  datatype Scrolled = Scrolled(registry: Registry, sent: seq<Packet>, notice: Option<Navigated>)

  /** One page forwards (nextPage) or backwards (previousPage), both
      wrapping around. */
  function Turn(s: Session, forwards: bool): (step: Outcome)
    requires WallSession.Valid(s)
    ensures WallSession.Valid(step.session)
    ensures step.session.viewer == s.viewer && step.session.catalog == s.catalog && step.session.layout == s.layout
    ensures forwards ==> step.session.currentPage == Following(s.currentPage, Pages(s))
    ensures !forwards ==> step.session.currentPage == Preceding(s.currentPage, Pages(s))
  {
    if forwards then NextPage(s) else PreviousPage(s)
  }

  /** onScroll: a scroll to a higher hotbar slot turns to the next page, any
      other scroll (a lower slot, or the same one) to the previous page, and
      the viewer is told the new page number out of the page count. */
  function OnScroll(r: Registry, player: PlayerId, previousSlot: int, newSlot: int): (o: Scrolled)
    requires Consistent(r)
    ensures player !in r.sessions ==> o == Scrolled(r, [], None)
    ensures player in r.sessions ==>
              var step := Turn(r.sessions[player], previousSlot < newSlot);
              && o.registry == r.(sessions := r.sessions[player := step.session])
              && o.sent == step.sent
              && o.notice == Some(Navigated(previousSlot < newSlot, CurrentPageNumber(step.session), Pages(r.sessions[player])))
    ensures Consistent(o.registry)
  {
    if player !in r.sessions then Scrolled(r, [], None)
    else
      var forwards := previousSlot < newSlot;
      var s := r.sessions[player];
      var step := Turn(s, forwards);
      var next := r.(sessions := r.sessions[player := step.session]);
      assert Pages(step.session) == Pages(s);
      assert Consistent(next) by {
        forall p | p in next.sessions
          ensures next.sessions[p].viewer == p && WallSession.Valid(next.sessions[p])
        {
          if p != player {
            assert next.sessions[p] == r.sessions[p];
          }
        }
      }
      Scrolled(next, step.sent, Some(Navigated(forwards, CurrentPageNumber(step.session), Pages(step.session))))
  }

  // Intercepted client packets.

  /** The six directions a clicked block face can have on the wire. */
  datatype Direction = Down | Up | North | South | West | East

  /** protocolLibDirectionToBlockPosition. */
  function DirectionToFace(d: Direction): (f: World.BlockFace)
    ensures f != World.Self
    ensures FaceToDirection(f) == Some(d)
  {
    match d
    case Down => World.Down
    case Up => World.Up
    case North => World.North
    case South => World.South
    case West => World.West
    case East => World.East
  }

  /** The partner of DirectionToFace: the direction naming a face, if any. */
  function FaceToDirection(f: World.BlockFace): Option<Direction> {
    match f
    case Down => Some(Down)
    case Up => Some(Up)
    case North => Some(North)
    case South => Some(South)
    case West => Some(West)
    case East => Some(East)
    case Self => None
  }

  /** The mapping is one-to-one onto the six faces other than Self. */
  lemma DirectionFaceRoundTrip(f: World.BlockFace, d: Direction)
    ensures FaceToDirection(f) == Some(d) <==> f != World.Self && DirectionToFace(d) == f
  {
  }

  lemma DirectionToFaceInjective(a: Direction, b: Direction)
    requires DirectionToFace(a) == DirectionToFace(b)
    ensures a == b
  {
    assert FaceToDirection(DirectionToFace(a)) == Some(a);
  }

  /** The client packets the registry listens to, each with its
      acknowledgement sequence number: a block dig (left click), a use of
      the held item on a block face (right click), a use of the held item in
      the air. */
  datatype ClientPacket =
    | BlockDig(sequence: int, at: World.Block)
    | UseItemOn(sequence: int, at: World.Block, direction: Direction)
    | UseItem(sequence: int)

  /** Whether the held item would place something: not air, and a block or a
      water or lava bucket. */
  predicate DoesBuild(held: World.Material) {
    !World.IsAir(held) && (World.IsBlock(held) || held == World.WaterBucket || held == World.LavaBucket)
  }

  /** Where a packet acts: the block the client believes it changed, the
      block it clicked, and whether it was a left click. */
  datatype Target = Target(manipulated: World.Block, clicked: World.Block, wasLeft: bool)

  /** The interaction target of a packet. */
  function ResolveTarget(packet: ClientPacket, held: World.Material): (t: Option<Target>)
    ensures packet.UseItem? <==> t.None?
    ensures packet.BlockDig? ==> t == Some(Target(packet.at, packet.at, true))
    ensures packet.UseItemOn? ==>
              && t.value.clicked == packet.at && !t.value.wasLeft
              && (DoesBuild(held) ==> t.value.manipulated == World.Step(packet.at, DirectionToFace(packet.direction), 1))
              && (!DoesBuild(held) ==> t.value.manipulated == packet.at)
  {
    match packet
    case BlockDig(_, at) => Some(Target(at, at, true))
    case UseItemOn(_, at, direction) =>
      var manipulated := if DoesBuild(held) then World.Step(at, DirectionToFace(direction), 1) else at;
      Some(Target(manipulated, at, false))
    case UseItem(_) => None
  }

  /** What onSessionInteract tells or gives the viewer. */
  datatype Interaction = NotAHead | GrantHead(head: Head) | ShowHeadInfo(head: Head)

  /** onSessionInteract: a hint when no head is shown at the location; a left
      click hands the head over, a right click shows its details. */
  function Interact(s: Session, at: World.Location, wasLeft: bool): (i: Interaction)
    ensures HeadAt(s, at).None? <==> i == NotAHead
    ensures HeadAt(s, at).Some? ==> i == (if wasLeft then GrantHead(HeadAt(s, at).value) else ShowHeadInfo(HeadAt(s, at).value))
  {
    match HeadAt(s, at)
    case None => NotAHead
    case Some(head) => if wasLeft then GrantHead(head) else ShowHeadInfo(head)
  }

  /** The location of a block's corner in a world. */
  function CornerOf(world: World.WorldId, b: World.Block): (l: World.Location)
    ensures World.BlockOf(l) == b && l.world == world
  {
    World.Location(world, b.x as real, b.y as real, b.z as real)
  }

  /** Whether an interaction at `now` falls outside the debounce window. */
  predicate Debounced(r: Registry, now: int) {
    now - r.lastInteraction >= INTERACTION_MIN_DISTANCE_MS
  }

  datatype Received = Received(registry: Registry, cancelled: bool, sent: seq<Packet>, interaction: Option<Interaction>)

  /** onPacketReceiving for a player at time `now`: without a session the
      packet passes untouched. With one, the packet is cancelled; the
      acknowledgement goes out first (when the server supports it), then the
      manipulated block is repainted, and an interaction at the clicked block
      (in the viewer's current world) runs when it is outside the debounce
      window, which then restarts at `now`. */
  function OnPacketReceiving(r: Registry, player: PlayerId, packet: ClientPacket, held: World.Material,
                             viewerWorld: World.WorldId, ackSupported: bool, now: int): (o: Received)
    ensures player !in r.sessions ==> o == Received(r, false, [], None)
    ensures player in r.sessions ==> o.cancelled && o.registry.sessions == r.sessions
    ensures player in r.sessions && ackSupported ==> |o.sent| > 0 && o.sent[0] == Ack(packet.sequence)
    ensures player in r.sessions ==>
              var target := ResolveTarget(packet, held);
              var ack := if ackSupported then [Ack(packet.sequence)] else [];
              o.sent == ack + (if target.Some? then TryBlockManipulate(r.sessions[player], target.value.manipulated) else [])
    ensures o.interaction.Some? <==> player in r.sessions && !packet.UseItem? && Debounced(r, now)
    ensures o.interaction.Some? ==>
              var target := ResolveTarget(packet, held).value;
              && o.interaction.value == Interact(r.sessions[player], CornerOf(viewerWorld, target.clicked), target.wasLeft)
              && o.registry.lastInteraction == now
    ensures o.interaction.None? ==> o.registry.lastInteraction == r.lastInteraction
  {
    if player !in r.sessions then Received(r, false, [], None)
    else
      var s := r.sessions[player];
      var ack := if ackSupported then [Ack(packet.sequence)] else [];
      match ResolveTarget(packet, held)
      case None => Received(r, true, ack, None)
      case Some(target) =>
        var sent := ack + TryBlockManipulate(s, target.manipulated);
        if !Debounced(r, now) then Received(r, true, sent, None)
        else
          var interaction := Interact(s, CornerOf(viewerWorld, target.clicked), target.wasLeft);
          Received(r.(lastInteraction := now), true, sent, Some(interaction))
  }

  /** Packets never change the sessions, so consistency is kept. */
  lemma ReceivingKeepsConsistent(r: Registry, player: PlayerId, packet: ClientPacket, held: World.Material,
                                 viewerWorld: World.WorldId, ackSupported: bool, now: int)
    requires Consistent(r)
    ensures Consistent(OnPacketReceiving(r, player, packet, held, viewerWorld, ackSupported, now).registry)
  {
  }

  /** The debounce window is one for all players: after an interaction at
      `t`, the next one, from the same or another player, runs exactly when
      it comes at least 250 ms later. */
  lemma DebounceWindow(r: Registry, t: int, u: int,
                       p: PlayerId, a: ClientPacket, heldA: World.Material, worldA: World.WorldId,
                       q: PlayerId, b: ClientPacket, heldB: World.Material, worldB: World.WorldId,
                       ackSupported: bool)
    requires p in r.sessions && q in r.sessions && !a.UseItem? && !b.UseItem? && Debounced(r, t)
    ensures var first := OnPacketReceiving(r, p, a, heldA, worldA, ackSupported, t);
            && first.interaction.Some?
            && (OnPacketReceiving(first.registry, q, b, heldB, worldB, ackSupported, u).interaction.Some? <==>
                u - t >= INTERACTION_MIN_DISTANCE_MS)
  {
    var first := OnPacketReceiving(r, p, a, heldA, worldA, ackSupported, t);
    assert first.registry.lastInteraction == t;
  }

  /** A dropped interaction does not restart the window: clicks at t,
      t + 200 and t + 260 run the first and the third. */
  lemma DroppedInteractionKeepsWindow(r: Registry, t: int, p: PlayerId, a: ClientPacket,
                                      held: World.Material, world: World.WorldId, ackSupported: bool)
    requires p in r.sessions && !a.UseItem? && Debounced(r, t)
    ensures var first := OnPacketReceiving(r, p, a, held, world, ackSupported, t);
            var second := OnPacketReceiving(first.registry, p, a, held, world, ackSupported, t + 200);
            var third := OnPacketReceiving(second.registry, p, a, held, world, ackSupported, t + 260);
            first.interaction.Some? && second.interaction.None? && third.interaction.Some?
  {
    var first := OnPacketReceiving(r, p, a, held, world, ackSupported, t);
    var second := OnPacketReceiving(first.registry, p, a, held, world, ackSupported, t + 200);
    assert second.registry.lastInteraction == t;
  }

  /** A player holding something placeable who right-clicks the face of a
      wall cell that looks at the viewer makes the client place into the
      head cell in front of it; the click itself lands on the wall cell. */
  lemma BuildingOnWallTargetsHeadCell(g: Layout, row: int, col: int, sequence: int, direction: Direction, held: World.Material)
    requires WellFormed(g)
    requires DirectionToFace(direction) == World.Opposite(g.face) && DoesBuild(held)
    ensures var wall := Cell(g, GridPoint(row, col, 0));
            ResolveTarget(UseItemOn(sequence, wall, direction), held) ==
              Some(Target(Cell(g, GridPoint(row, col, 1)), wall, false))
  {
    HeadInFrontOfWall(g, row, col);
  }

  /** Clicking a wall cell after the first show finds no head there. */
  lemma ClickingWallFindsNoHead(s: Session, b: World.Block, wasLeft: bool)
    requires WallSession.Valid(s) && Keyable(s.layout) && s.headByKey == map[]
    requires b in Walls(s.layout)
    ensures Interact(Show(s).session, CornerOf(s.layout.anchor.world, b), wasLeft) == NotAHead
  {
    WallsAreWallCells(s.layout);
    RoleKeysSeparate(s.layout, b);
    ShowFrame(s, CoordinateKey.Key(b));
  }

  /** The registry's walls with 45 heads: two pages, the second with five
      heads. The first show paints 200 wall and air blocks and draws 40
      heads; turning forwards draws the 5 heads of the last page and clears
      the other 35 slots; turning forwards again wraps to the first page, and
      turning backwards from the first page wraps to the last. */
  lemma FortyFiveHeads(player: PlayerId, at: World.Location, yaw: real, heads: seq<Head>)
    requires |heads| == 45
    ensures var s := NewSession(player, at, yaw, heads, WALL_PARAMETER);
            var shown := Show(s);
            var second := NextPage(shown.session);
            && Pages(s) == 2
            && |shown.sent| == 200 + 40 + 40
            && second.session.currentPage == 1 && |second.sent| == 40 + 5
            && NextPage(second.session).session.currentPage == 0
            && PreviousPage(shown.session).session.currentPage == 1
  {
    var s := NewSession(player, at, yaw, heads, WALL_PARAMETER);
    assert PageSize(WALL_PARAMETER) == 40;
    assert Pages(s) == 2 by {
      assert (45 + 40 - 1) / 40 == 2;
    }
    var second := NextPage(Show(s).session);
    assert FirstIndex(second.session) == 40;
  }
}

=== FILE: session.dfy ===
/** HeadWallSession: one viewer's head wall. The session paints the wall and
    clears the viewing box once, draws the heads of the current page, keeps
    two indices keyed by the packed block key (the head shown at a block and
    the routine that repaints a block), pages with wrap-around, and on close
    re-sends the real blocks. Packets are returned as values instead of being
    sent. */
module WallSession {
  import opened Wrappers
  import opened World
  import opened Arithmetic
  import opened Geometry
  import opened CoordinateKey

  /** A player is known by its unique id. */
  type PlayerId = nat

  /** A head of the head database; the session only passes it around. */
  datatype Head = Head(name: string, texture: string, category: string, tags: seq<string>)

  /** What a block change tells the client a block is. `Live` stands for the
      block the world really holds at that position when the packet is built
      (location.getBlock().getBlockData()). */
  datatype BlockData = Plain(material: Material) | PlayerHead(rotation: BlockFace) | Live

  /** Packets to the viewer: a block change, the skull texture of a head
      block, and the acknowledgement of a client block interaction. */
  datatype Packet =
    | BlockChange(at: Block, data: BlockData)
    | SkullTexture(at: Block, head: Head)
    | Ack(sequence: int)

  /** A captured restore routine: what it re-sends when run. */
  datatype Restore =
    | Paint(at: Block, data: BlockData)
    | PaintHead(at: Block, head: Head, rotation: BlockFace)

  /** Running a restore routine. */
  function Run(r: Restore): seq<Packet> {
    match r
    case Paint(at, data) => [BlockChange(at, data)]
    case PaintHead(at, head, rotation) => [BlockChange(at, PlayerHead(rotation)), SkullTexture(at, head)]
  }

  datatype Session = Session(
    viewer: PlayerId,
    catalog: seq<Head>,
    layout: Layout,
    headByKey: map<int, Head>,
    restoreByKey: map<int, Restore>,
    auxiliaryPainted: bool,
    headsDrawn: bool,
    currentPage: int)

  /** The new state of a session and the packets sent on the way. */
  datatype Outcome = Outcome(session: Session, sent: seq<Packet>)

  /** max(1, ceil(count / pageSize)): an empty catalogue still has one page. */
  function NumberOfPages(count: int, pageSize: int): (r: int)
    requires count >= 0 && pageSize >= 1
    ensures r >= 1
    ensures count <= r * pageSize
    ensures count > 0 ==> (r - 1) * pageSize < count
    ensures count == 0 ==> r == 1
  {
    var q := (count + pageSize - 1) / pageSize;
    assert count + pageSize - 1 == q * pageSize + (count + pageSize - 1) % pageSize;
    if q < 1 then 1 else q
  }

  function Pages(s: Session): int
    requires ValidParams(s.layout.params)
  {
    NumberOfPages(|s.catalog|, PageSize(s.layout.params))
  }

  /** The session invariant: a well-formed layout and a page in range. */
  predicate Valid(s: Session) {
    WellFormed(s.layout) && 0 <= s.currentPage < Pages(s)
  }

  /** The catalogue index shown in slot 0 of the current page. The page
      starts inside the catalogue unless the catalogue is empty. */
  function FirstIndex(s: Session): (i: nat)
    requires Valid(s)
    ensures i == s.currentPage * PageSize(s.layout.params)
    ensures i < |s.catalog| || (|s.catalog| == 0 && i == 0)
  {
    var ps := PageSize(s.layout.params);
    assert 0 <= s.currentPage * ps <= (Pages(s) - 1) * ps by {
      MulMono(0, s.currentPage, ps);
      MulMono(s.currentPage, Pages(s) - 1, ps);
    }
    s.currentPage * ps
  }

  /** The constructor: plans the layout in front of the viewer, starts on the
      first page with nothing painted and both indices empty. */
  function NewSession(viewer: PlayerId, at: Location, yaw: real, catalog: seq<Head>, params: Params): (s: Session)
    requires ValidParams(params)
    ensures Valid(s)
    ensures s.layout == Plan(params, at, yaw)
    ensures s.viewer == viewer && s.catalog == catalog && s.currentPage == 0
    ensures !s.auxiliaryPainted && !s.headsDrawn && s.headByKey == map[] && s.restoreByKey == map[]
  {
    Session(viewer, catalog, Plan(params, at, yaw), map[], map[], false, false, 0)
  }

  /** getCurrentPage: the page number shown to the viewer, counted from one. */
  function CurrentPageNumber(s: Session): (n: int)
    requires Valid(s)
    ensures n == s.currentPage + 1
    ensures 1 <= n <= Pages(s)
  {
    s.currentPage + 1
  }

  // Keys of the painted blocks.

  function KeysOf(cells: seq<Block>): set<int> {
    set c | c in cells :: Key(c)
  }

  predicate DistinctKeys(cells: seq<Block>) {
    forall i, j :: 0 <= i < j < |cells| ==> Key(cells[i]) != Key(cells[j])
  }

  /** Every block of the layout lies where the key keeps blocks apart. */
  ghost predicate Keyable(g: Layout) {
    forall p :: InGrid(g, p) ==> InKeyRange(Cell(g, p))
  }

  /** In a keyable layout, distinct blocks of the footprint have distinct keys. */
  lemma FootprintKeysDistinct(g: Layout, a: Block, b: Block)
    requires Keyable(g)
    requires RoleOf(g, a).Some? && RoleOf(g, b).Some? && a != b
    ensures Key(a) != Key(b)
  {
    RoleOfLocated(g, a);
    RoleOfLocated(g, b);
    if Key(a) == Key(b) {
      KeyInjective(a, b);
    }
  }

  // Painting.

  /** A block change per cell, all with the same data. */
  function Resend(cells: seq<Block>, data: BlockData): (r: seq<Packet>)
    ensures |r| == |cells|
    ensures forall i :: 0 <= i < |cells| ==> r[i] == BlockChange(cells[i], data)
  {
    seq(|cells|, i requires 0 <= i < |cells| => BlockChange(cells[i], data))
  }

  /** captureRestoreRoutineAndExecute over a list of cells, in order: each cell
      gets a routine that repaints it with `data`, a later cell overwriting an
      earlier one with the same key. */
  function PaintAll(m: map<int, Restore>, cells: seq<Block>, data: BlockData): (r: map<int, Restore>)
    ensures r.Keys == m.Keys + KeysOf(cells)
    ensures forall k :: k in m && k !in KeysOf(cells) ==> r[k] == m[k]
    decreases |cells|
  {
    if |cells| == 0 then m
    else
      var n := |cells| - 1;
      KeysOfSnoc(cells);
      PaintAll(m, cells[..n], data)[Key(cells[n]) := Paint(cells[n], data)]
  }

  /** With distinct keys, every cell ends up with the routine painting it. */
  lemma {:induction false} PaintAllPaints(m: map<int, Restore>, cells: seq<Block>, data: BlockData, i: int)
    requires DistinctKeys(cells) && 0 <= i < |cells|
    ensures PaintAll(m, cells, data)[Key(cells[i])] == Paint(cells[i], data)
    decreases |cells|
  {
    var n := |cells| - 1;
    if i < n {
      var prefix := cells[..n];
      assert prefix[i] == cells[i];
      PaintAllPaints(m, prefix, data, i);
    }
  }

  /** The number of slots of a page that show a head, when `available` heads
      are left from the page's first index on. */
  function Filled(available: int, slots: int): int {
    if available <= 0 then 0 else if available >= slots then slots else available
  }

  datatype Drawn = Drawn(heads: map<int, Head>, restores: map<int, Restore>, sent: seq<Packet>)

  /** What drawing slot `slot` at block `at` leaves behind: the head at index
      first + slot with its routine when that index exists; otherwise the
      head entry is gone and the routine from before (`before`) stays. */
  predicate SlotDrawn(d: Drawn, catalog: seq<Head>, first: int, rotation: BlockFace, at: Block, slot: int, before: map<int, Restore>) {
    var k := Key(at);
    var index := first + slot;
    if 0 <= index < |catalog| then
      && k in d.heads && d.heads[k] == catalog[index]
      && k in d.restores && d.restores[k] == PaintHead(at, catalog[index], rotation)
    else
      && k !in d.heads
      && (k in d.restores <==> k in before)
      && (k in before ==> d.restores[k] == before[k])
  }

  /** SlotDrawn read through the head index. */
  lemma SlotDrawnHead(d: Drawn, catalog: seq<Head>, first: int, rotation: BlockFace, at: Block, slot: int, before: map<int, Restore>)
    requires SlotDrawn(d, catalog, first, rotation, at, slot, before)
    ensures var index := first + slot;
            (if Key(at) in d.heads then Some(d.heads[Key(at)]) else None) ==
              if 0 <= index < |catalog| then Some(catalog[index]) else None
  {
  }

  /** The packets the head pass sends for slot `slot` at block `at`: the
      slot is cleared to air when its catalogue index is past the end;
      otherwise it gets the head block facing `rotation`, then the head's
      texture. */
  function SlotPackets(catalog: seq<Head>, first: int, rotation: BlockFace, at: Block, slot: int): seq<Packet>
    requires first >= 0 && slot >= 0
  {
    if first + slot >= |catalog| then [BlockChange(at, Plain(Air))]
    else Run(PaintHead(at, catalog[first + slot], rotation))
  }

  /** All packets of the head pass, slot by slot. */
  function HeadPackets(catalog: seq<Head>, first: int, rotation: BlockFace, cells: seq<Block>): (r: seq<Packet>)
    requires first >= 0
    ensures |r| == |cells| + Filled(|catalog| - first, |cells|)
    decreases |cells|
  {
    if |cells| == 0 then []
    else
      var n := |cells| - 1;
      HeadPackets(catalog, first, rotation, cells[..n]) + SlotPackets(catalog, first, rotation, cells[n], n)
  }

  /** The head pass of show, slot by slot. */
  function DrawSlots(catalog: seq<Head>, first: int, rotation: BlockFace, cells: seq<Block>,
                     hm: map<int, Head>, rm: map<int, Restore>): (r: Drawn)
    requires first >= 0
    ensures |r.sent| == |cells| + Filled(|catalog| - first, |cells|)
    decreases |cells|
  {
    if |cells| == 0 then Drawn(hm, rm, [])
    else
      var n := |cells| - 1;
      var at := cells[n];
      var prev := DrawSlots(catalog, first, rotation, cells[..n], hm, rm);
      if first + n >= |catalog| then
        Drawn(prev.heads - {Key(at)}, prev.restores, prev.sent + [BlockChange(at, Plain(Air))])
      else
        var head := catalog[first + n];
        var routine := PaintHead(at, head, rotation);
        Drawn(prev.heads[Key(at) := head], prev.restores[Key(at) := routine], prev.sent + Run(routine))
  }

  lemma KeysOfSnoc(cells: seq<Block>)
    requires |cells| > 0
    ensures KeysOf(cells) == KeysOf(cells[..|cells| - 1]) + {Key(cells[|cells| - 1])}
  {
    assert cells == cells[..|cells| - 1] + [cells[|cells| - 1]];
  }

  /** With distinct keys, the last cell's key is not among the others. */
  lemma LastKeyFresh(cells: seq<Block>)
    requires |cells| > 0 && DistinctKeys(cells)
    ensures Key(cells[|cells| - 1]) !in KeysOf(cells[..|cells| - 1])
  {
  }

  /** The head pass touches only the keys of its cells. */
  lemma {:induction false} DrawSlotsFrame(catalog: seq<Head>, first: int, rotation: BlockFace, cells: seq<Block>,
                                          hm: map<int, Head>, rm: map<int, Restore>, k: int)
    requires first >= 0 && k !in KeysOf(cells)
    ensures var r := DrawSlots(catalog, first, rotation, cells, hm, rm);
            && (k in r.heads <==> k in hm) && (k in hm ==> r.heads[k] == hm[k])
            && (k in r.restores <==> k in rm) && (k in rm ==> r.restores[k] == rm[k])
    decreases |cells|
  {
    if |cells| > 0 {
      var n := |cells| - 1;
      KeysOfSnoc(cells);
      DrawSlotsFrame(catalog, first, rotation, cells[..n], hm, rm, k);
    }
  }

  /** SlotDrawn depends only on the two indices' entries at the slot's key. */
  lemma SlotDrawnAgree(d: Drawn, e: Drawn, catalog: seq<Head>, first: int, rotation: BlockFace, at: Block, slot: int,
                       before: map<int, Restore>)
    requires SlotDrawn(d, catalog, first, rotation, at, slot, before)
    requires (Key(at) in d.heads <==> Key(at) in e.heads) && (Key(at) in d.heads ==> d.heads[Key(at)] == e.heads[Key(at)])
    requires (Key(at) in d.restores <==> Key(at) in e.restores) && (Key(at) in d.restores ==> d.restores[Key(at)] == e.restores[Key(at)])
    ensures SlotDrawn(e, catalog, first, rotation, at, slot, before)
  {
  }

  /** With distinct keys, every slot ends up as SlotDrawn says. */
  lemma {:induction false} DrawSlotsDraws(catalog: seq<Head>, first: int, rotation: BlockFace, cells: seq<Block>,
                                          hm: map<int, Head>, rm: map<int, Restore>, i: int)
    requires first >= 0 && DistinctKeys(cells) && 0 <= i < |cells|
    ensures SlotDrawn(DrawSlots(catalog, first, rotation, cells, hm, rm), catalog, first, rotation, cells[i], i, rm)
    decreases |cells|
  {
    var n := |cells| - 1;
    var prefix := cells[..n];
    var prev := DrawSlots(catalog, first, rotation, prefix, hm, rm);
    var cur := DrawSlots(catalog, first, rotation, cells, hm, rm);
    if i < n {
      assert DistinctKeys(prefix) by {
        forall a, b | 0 <= a < b < n
          ensures Key(prefix[a]) != Key(prefix[b])
        {
          assert prefix[a] == cells[a] && prefix[b] == cells[b];
        }
      }
      DrawSlotsDraws(catalog, first, rotation, prefix, hm, rm, i);
      assert prefix[i] == cells[i] && Key(cells[i]) != Key(cells[n]);
      SlotDrawnAgree(prev, cur, catalog, first, rotation, cells[i], i, rm);
    } else {
      LastKeyFresh(cells);
      DrawSlotsFrame(catalog, first, rotation, prefix, hm, rm, Key(cells[n]));
    }
  }

  /** The head pass sends exactly the slots' packets in slot order. */
  lemma {:induction false} DrawSlotsSent(catalog: seq<Head>, first: int, rotation: BlockFace, cells: seq<Block>,
                                         hm: map<int, Head>, rm: map<int, Restore>)
    requires first >= 0
    ensures DrawSlots(catalog, first, rotation, cells, hm, rm).sent == HeadPackets(catalog, first, rotation, cells)
    decreases |cells|
  {
    if |cells| > 0 {
      DrawSlotsSent(catalog, first, rotation, cells[..|cells| - 1], hm, rm);
    }
  }

  /** The head pass over the first `m` slots sends a prefix of what the
      whole pass sends. */
  lemma {:induction false} HeadPacketsPrefix(catalog: seq<Head>, first: int, rotation: BlockFace, cells: seq<Block>, m: int)
    requires first >= 0 && 0 <= m <= |cells|
    ensures HeadPackets(catalog, first, rotation, cells[..m]) <= HeadPackets(catalog, first, rotation, cells)
    decreases |cells|
  {
    if m < |cells| {
      var n := |cells| - 1;
      assert cells[..n][..m] == cells[..m];
      HeadPacketsPrefix(catalog, first, rotation, cells[..n], m);
    } else {
      assert cells[..m] == cells;
    }
  }

  /** Slot `i`'s packets sit in the head pass where the slots before it end:
      each of them sent one packet, and one more when it showed a head. */
  lemma {:induction false} HeadPacketsSends(catalog: seq<Head>, first: int, rotation: BlockFace, cells: seq<Block>, i: int)
    requires first >= 0 && 0 <= i < |cells|
    ensures var sent := HeadPackets(catalog, first, rotation, cells);
            var o := i + Filled(|catalog| - first, i);
            var mine := SlotPackets(catalog, first, rotation, cells[i], i);
            o + |mine| <= |sent| && sent[o..o + |mine|] == mine
  {
    var upTo := HeadPackets(catalog, first, rotation, cells[..i + 1]);
    var before := HeadPackets(catalog, first, rotation, cells[..i]);
    var mine := SlotPackets(catalog, first, rotation, cells[i], i);
    assert cells[..i + 1][..i] == cells[..i];
    assert upTo == before + mine;
    HeadPacketsPrefix(catalog, first, rotation, cells, i + 1);
    assert upTo[|before|..|before| + |mine|] == mine;
  }

  // The operations.

  /** The restore routines after the first show's auxiliary pass: every wall
      cell repaints the wall material, every viewing-box cell repaints air. */
  function PaintAuxiliary(g: Layout, m: map<int, Restore>): map<int, Restore>
    requires ValidParams(g.params)
  {
    PaintAll(PaintAll(m, Walls(g), Plain(g.params.wallType)), Boxes(g), Plain(Air))
  }

  /** The restore index the head pass of show starts from: on the first
      show, with the wall and viewing-box routines added. */
  function AuxiliaryRestores(s: Session): map<int, Restore>
    requires ValidParams(s.layout.params)
  {
    if s.auxiliaryPainted then s.restoreByKey else PaintAuxiliary(s.layout, s.restoreByKey)
  }

  /** The paints the first show sends before the heads: the wall, then air
      for the viewing box; a later show sends none. */
  function AuxiliaryPaints(s: Session): (r: seq<Packet>)
    requires ValidParams(s.layout.params)
    ensures |r| == if s.auxiliaryPainted then 0 else |Walls(s.layout)| + |Boxes(s.layout)|
  {
    var g := s.layout;
    if s.auxiliaryPainted then [] else Resend(Walls(g), Plain(g.params.wallType)) + Resend(Boxes(g), Plain(Air))
  }

  /** show: on the first call paint the wall and clear the viewing box, each
      with a captured routine; on every call draw the current page's heads. */
  function Show(s: Session): (r: Outcome)
    requires Valid(s)
    ensures Valid(r.session)
    ensures r.session.auxiliaryPainted && r.session.headsDrawn
    ensures r.session.(headByKey := s.headByKey, restoreByKey := s.restoreByKey,
                       auxiliaryPainted := s.auxiliaryPainted, headsDrawn := s.headsDrawn) == s
    ensures var ps := PageSize(s.layout.params);
            |r.sent| == (if s.auxiliaryPainted then 0 else ps * (BoxDepth(s.layout.params) + 1))
                        + ps + Filled(|s.catalog| - FirstIndex(s), ps)
  {
    var g := s.layout;
    var ps := PageSize(g.params);
    var restores := AuxiliaryRestores(s);
    var aux := AuxiliaryPaints(s);
    var drawn := DrawSlots(s.catalog, FirstIndex(s), g.face, HeadSlots(g), s.headByKey, restores);
    Outcome(s.(auxiliaryPainted := true, headsDrawn := true, headByKey := drawn.heads, restoreByKey := drawn.restores),
         aux + drawn.sent)
  }

  /** The page nextPage turns to: the following one, and the first after
      the last. This is counting modulo the number of pages. */
  function Following(page: int, pages: int): (next: int)
    requires 0 <= page < pages
    ensures 0 <= next < pages
    ensures next == (page + 1) % pages
  {
    var next := if page >= pages - 1 then 0 else page + 1;
    assert next == (page + 1) % pages by {
      if next == 0 { DivModOfFlat(1, 0, pages); } else { DivModOfFlat(0, next, pages); }
    }
    next
  }

  /** The page previousPage turns to: the preceding one, and the last before
      the first. This is counting modulo the number of pages. */
  function Preceding(page: int, pages: int): (previous: int)
    requires 0 <= page < pages
    ensures 0 <= previous < pages
    ensures previous == (page - 1) % pages
  {
    var previous := if page == 0 then pages - 1 else page - 1;
    assert previous == (page - 1) % pages by {
      if page == 0 { DivModOfFlat(-1, previous, pages); } else { DivModOfFlat(0, previous, pages); }
    }
    previous
  }

  /** nextPage: turn to the following page, then show. */
  function NextPage(s: Session): (r: Outcome)
    requires Valid(s)
    ensures Valid(r.session)
    ensures r == Show(s.(currentPage := Following(s.currentPage, Pages(s))))
    ensures r.session.currentPage == Following(s.currentPage, Pages(s))
    ensures r.session.viewer == s.viewer && r.session.catalog == s.catalog && r.session.layout == s.layout
  {
    Show(s.(currentPage := Following(s.currentPage, Pages(s))))
  }

  /** previousPage: turn to the preceding page, then show. */
  function PreviousPage(s: Session): (r: Outcome)
    requires Valid(s)
    ensures Valid(r.session)
    ensures r == Show(s.(currentPage := Preceding(s.currentPage, Pages(s))))
    ensures r.session.currentPage == Preceding(s.currentPage, Pages(s))
    ensures r.session.viewer == s.viewer && r.session.catalog == s.catalog && r.session.layout == s.layout
  {
    Show(s.(currentPage := Preceding(s.currentPage, Pages(s))))
  }

  /** Paging forward and back (or back and forward) returns to the page. */
  lemma PagingRoundTrip(s: Session)
    requires Valid(s)
    ensures PreviousPage(NextPage(s).session).session.currentPage == s.currentPage
    ensures NextPage(PreviousPage(s).session).session.currentPage == s.currentPage
  {
  }

  /** A block change to the live block data for every cell. */
  function Resync(cells: seq<Block>): seq<Packet> {
    Resend(cells, Live)
  }

  /** close: re-send the real blocks of the wall and the viewing box if they
      were painted, then of the head cells if heads were drawn, and reset
      both flags. Neither index is cleared. */
  function Close(s: Session): (r: Outcome)
    requires ValidParams(s.layout.params)
    ensures r.session == s.(auxiliaryPainted := false, headsDrawn := false)
    ensures forall p :: p in r.sent ==> p.BlockChange? && p.data == Live
    ensures var ps := PageSize(s.layout.params);
            |r.sent| == (if s.auxiliaryPainted then ps * (BoxDepth(s.layout.params) + 1) else 0)
                        + (if s.headsDrawn then ps else 0)
  {
    var g := s.layout;
    var aux := if s.auxiliaryPainted then Resync(Walls(g)) + Resync(Boxes(g)) else [];
    var heads := if s.headsDrawn then Resync(HeadSlots(g)) else [];
    Outcome(s.(auxiliaryPainted := false, headsDrawn := false), aux + heads)
  }

  /** Closing a closed session sends nothing and changes nothing. */
  lemma CloseTwice(s: Session)
    requires ValidParams(s.layout.params)
    ensures Close(Close(s).session) == Outcome(Close(s).session, [])
  {
  }

  /** onTryBlockManipulate: a block the session painted is repainted by its
      routine; any other block is re-sent as the world holds it. */
  function TryBlockManipulate(s: Session, at: Block): (sent: seq<Packet>)
    ensures Key(at) in s.restoreByKey ==> sent == Run(s.restoreByKey[Key(at)])
    ensures Key(at) !in s.restoreByKey ==> sent == [BlockChange(at, Live)]
  {
    if Key(at) in s.restoreByKey then Run(s.restoreByKey[Key(at)]) else [BlockChange(at, Live)]
  }

  /** getHeadAtLocation: nothing in another world, else the head indexed at
      the location's block. */
  function HeadAt(s: Session, at: Location): (r: Option<Head>)
    ensures at.world != s.layout.anchor.world ==> r.None?
    ensures at.world == s.layout.anchor.world ==>
              (r.Some? <==> Key(BlockOf(at)) in s.headByKey) &&
              (r.Some? ==> r.value == s.headByKey[Key(BlockOf(at))])
  {
    if at.world != s.layout.anchor.world then None
    else if Key(BlockOf(at)) in s.headByKey then Some(s.headByKey[Key(BlockOf(at))])
    else None
  }

  /** distanceSquaredTo: -1 for another world, else the squared distance
      from the anchor: never negative, and zero at the anchor itself. */
  function DistanceSquaredTo(s: Session, at: Location): (d: real)
    ensures at.world != s.layout.anchor.world <==> d == -1.0
    ensures at.world == s.layout.anchor.world ==>
              d >= 0.0 && ((at.x, at.y, at.z) == (s.layout.anchor.x, s.layout.anchor.y, s.layout.anchor.z) ==> d == 0.0)
  {
    var a := s.layout.anchor;
    if at.world != a.world then -1.0
    else
      var dx, dy, dz := at.x - a.x, at.y - a.y, at.z - a.z;
      dx * dx + dy * dy + dz * dz
  }

  // What show, manipulation and close do to the footprint of a keyable layout.

  /** The wall, the viewing box and the head slots each have distinct keys. */
  lemma FootprintSequencesDistinctKeys(g: Layout)
    requires WellFormed(g) && Keyable(g)
    ensures DistinctKeys(Walls(g)) && DistinctKeys(Boxes(g)) && DistinctKeys(HeadSlots(g))
  {
    WallsAreWallCells(g);
    BoxesAreViewingBoxCells(g);
    HeadSlotsAreHeadCells(g);
    forall i, j | 0 <= i < j < |Walls(g)|
      ensures Key(Walls(g)[i]) != Key(Walls(g)[j])
    {
      if Walls(g)[i] == Walls(g)[j] {
        WallsDistinct(g, i, j);
      }
      FootprintKeysDistinct(g, Walls(g)[i], Walls(g)[j]);
    }
    forall i, j | 0 <= i < j < |Boxes(g)|
      ensures Key(Boxes(g)[i]) != Key(Boxes(g)[j])
    {
      if Boxes(g)[i] == Boxes(g)[j] {
        BoxesDistinct(g, i, j);
      }
      FootprintKeysDistinct(g, Boxes(g)[i], Boxes(g)[j]);
    }
    forall i, j | 0 <= i < j < |HeadSlots(g)|
      ensures Key(HeadSlots(g)[i]) != Key(HeadSlots(g)[j])
    {
      FootprintKeysDistinct(g, HeadSlots(g)[i], HeadSlots(g)[j]);
    }
  }

  /** A block of one role has a key no block of the given cells shares, when
      all those cells play another role. */
  lemma KeyNotAmong(g: Layout, at: Block, cells: seq<Block>, role: Role)
    requires WellFormed(g) && Keyable(g)
    requires RoleOf(g, at).Some? && RoleOf(g, at) != Some(role)
    requires forall c :: c in cells ==> RoleOf(g, c) == Some(role)
    ensures Key(at) !in KeysOf(cells)
  {
    forall c | c in cells
      ensures Key(c) != Key(at)
    {
      FootprintKeysDistinct(g, c, at);
    }
  }

  /** The head cells' keys are not wall or viewing-box keys, and the other
      way round. */
  lemma RoleKeysSeparate(g: Layout, at: Block)
    requires WellFormed(g) && Keyable(g) && RoleOf(g, at).Some?
    ensures RoleOf(g, at) != Some(WallCell) ==> Key(at) !in KeysOf(Walls(g))
    ensures RoleOf(g, at) != Some(ViewingBoxCell) ==> Key(at) !in KeysOf(Boxes(g))
    ensures RoleOf(g, at) != Some(HeadCell) ==> Key(at) !in KeysOf(HeadSlots(g))
  {
    WallsAreWallCells(g);
    BoxesAreViewingBoxCells(g);
    HeadSlotsAreHeadCells(g);
    if RoleOf(g, at) != Some(WallCell) {
      KeyNotAmong(g, at, Walls(g), WallCell);
    }
    if RoleOf(g, at) != Some(ViewingBoxCell) {
      KeyNotAmong(g, at, Boxes(g), ViewingBoxCell);
    }
    if RoleOf(g, at) != Some(HeadCell) {
      KeyNotAmong(g, at, HeadSlots(g), HeadCell);
    }
  }

  /** show draws slot `slot` from catalogue index currentPage * pageSize + slot:
      the head and a routine that redraws it when the index exists, otherwise
      the head entry is removed and whatever routine the block had before
      the call stays in place. */
  lemma ShowDrawsCurrentPage(s: Session, slot: int)
    requires Valid(s) && Keyable(s.layout)
    requires 0 <= slot < PageSize(s.layout.params)
    ensures var t := Show(s).session;
            SlotDrawn(Drawn(t.headByKey, t.restoreByKey, []), s.catalog, FirstIndex(s),
                      s.layout.face, HeadSlots(s.layout)[slot], slot, s.restoreByKey)
  {
    var g := s.layout;
    var ps := PageSize(g.params);
    var at := HeadSlots(g)[slot];
    var restores := AuxiliaryRestores(s);
    FootprintSequencesDistinctKeys(g);
    DrawSlotsDraws(s.catalog, FirstIndex(s), g.face, HeadSlots(g), s.headByKey, restores, slot);
    HeadSlotsAreHeadCells(g);
    RoleKeysSeparate(g, at);
  }

  /** Outside the head cells' keys, show leaves the head index alone, and once
      the wall is painted it leaves the restore index alone too: wall and
      viewing box are painted by the first show only. */
  lemma ShowFrame(s: Session, k: int)
    requires Valid(s) && k !in KeysOf(HeadSlots(s.layout))
    ensures var t := Show(s).session;
            && (k in t.headByKey <==> k in s.headByKey)
            && (k in s.headByKey ==> t.headByKey[k] == s.headByKey[k])
    ensures var t := Show(s).session;
            s.auxiliaryPainted ==>
              && (k in t.restoreByKey <==> k in s.restoreByKey)
              && (k in s.restoreByKey ==> t.restoreByKey[k] == s.restoreByKey[k])
  {
    var g := s.layout;
    var ps := PageSize(g.params);
    var restores := AuxiliaryRestores(s);
    DrawSlotsFrame(s.catalog, FirstIndex(s), g.face, HeadSlots(g), s.headByKey, restores, k);
  }

  /** The routine painting the wall and the viewing box leave at one of
      their cells. */
  lemma PaintAuxiliaryCell(g: Layout, m: map<int, Restore>, c: Block)
    requires WellFormed(g) && Keyable(g) && (c in Walls(g) || c in Boxes(g))
    ensures var r := PaintAuxiliary(g, m);
            Key(c) in r && r[Key(c)] == Paint(c, if c in Walls(g) then Plain(g.params.wallType) else Plain(Air))
  {
    FootprintSequencesDistinctKeys(g);
    WallsAreWallCells(g);
    BoxesAreViewingBoxCells(g);
    var m1 := PaintAll(m, Walls(g), Plain(g.params.wallType));
    if c in Walls(g) {
      var i :| 0 <= i < |Walls(g)| && Walls(g)[i] == c;
      PaintAllPaints(m, Walls(g), Plain(g.params.wallType), i);
      RoleKeysSeparate(g, c);
    } else {
      var i :| 0 <= i < |Boxes(g)| && Boxes(g)[i] == c;
      PaintAllPaints(m1, Boxes(g), Plain(Air), i);
    }
  }

  /** The first show leaves at a wall or viewing-box cell the routine that
      repaints it. */
  lemma FirstShowPaintsCell(s: Session, c: Block)
    requires Valid(s) && Keyable(s.layout) && !s.auxiliaryPainted
    requires c in Walls(s.layout) || c in Boxes(s.layout)
    ensures var r := Show(s).session.restoreByKey;
            Key(c) in r && r[Key(c)] == Paint(c, if c in Walls(s.layout) then Plain(s.layout.params.wallType) else Plain(Air))
  {
    var g := s.layout;
    PaintAuxiliaryCell(g, s.restoreByKey, c);
    WallsAreWallCells(g);
    BoxesAreViewingBoxCells(g);
    RoleKeysSeparate(g, c);
    DrawSlotsFrame(s.catalog, FirstIndex(s), g.face, HeadSlots(g), s.headByKey, PaintAuxiliary(g, s.restoreByKey), Key(c));
  }

  /** The first show gives every wall cell a routine that repaints the wall
      material and every viewing-box cell one that repaints air, and sends
      those paints before anything else. */
  lemma FirstShowPaintsAuxiliary(s: Session)
    requires Valid(s) && Keyable(s.layout) && !s.auxiliaryPainted
    ensures var t := Show(s).session;
            forall w :: w in Walls(s.layout) ==>
              Key(w) in t.restoreByKey && t.restoreByKey[Key(w)] == Paint(w, Plain(s.layout.params.wallType))
    ensures var t := Show(s).session;
            forall b :: b in Boxes(s.layout) ==>
              Key(b) in t.restoreByKey && t.restoreByKey[Key(b)] == Paint(b, Plain(Air))
    ensures var g := s.layout;
            var n := |Walls(g)| + |Boxes(g)|;
            n <= |Show(s).sent| &&
            Show(s).sent[..n] == Resend(Walls(g), Plain(g.params.wallType)) + Resend(Boxes(g), Plain(Air))
  {
    var g := s.layout;
    WallsAreWallCells(g);
    BoxesAreViewingBoxCells(g);
    forall w | w in Walls(g)
      ensures Key(w) in Show(s).session.restoreByKey && Show(s).session.restoreByKey[Key(w)] == Paint(w, Plain(g.params.wallType))
    {
      FirstShowPaintsCell(s, w);
    }
    forall b | b in Boxes(g)
      ensures Key(b) in Show(s).session.restoreByKey && Show(s).session.restoreByKey[Key(b)] == Paint(b, Plain(Air))
    {
      FirstShowPaintsCell(s, b);
    }
  }

  /** A slot's packets at their offset, in packets that are some prefix
      followed by a head pass: air when the slot's catalogue index
      first + slot is past the end, otherwise the head block facing the
      viewer and then that head's texture. Each earlier slot sent one
      packet, and one more when it showed a head. With ShowSentSplit, the
      prefix is show's wall and air paints; with DrawSlotsSent, it is
      empty. */
  lemma SentSlot(sent: seq<Packet>, aux: seq<Packet>, catalog: seq<Head>, first: int, rotation: BlockFace, cells: seq<Block>, slot: int)
    requires first >= 0 && 0 <= slot < |cells|
    requires sent == aux + HeadPackets(catalog, first, rotation, cells)
    ensures var o := |aux| + slot + Filled(|catalog| - first, slot);
            var mine := SlotPackets(catalog, first, rotation, cells[slot], slot);
            o + |mine| <= |sent| && sent[o..o + |mine|] == mine
  {
    var heads := HeadPackets(catalog, first, rotation, cells);
    var mine := SlotPackets(catalog, first, rotation, cells[slot], slot);
    HeadPacketsSends(catalog, first, rotation, cells, slot);
    SliceAfterPrefix(aux, heads, slot + Filled(|catalog| - first, slot), |mine|);
  }

  /** A slice of a suffix, read through the whole sequence. */
  lemma SliceAfterPrefix(prefix: seq<Packet>, rest: seq<Packet>, d: int, len: int)
    requires 0 <= d && 0 <= len && d + len <= |rest|
    ensures (prefix + rest)[|prefix| + d..|prefix| + d + len] == rest[d..d + len]
  {
  }

  /** Show's packets: the wall and air paints of a first show, then those of
      the head pass. */
  lemma ShowSentSplit(s: Session)
    requires Valid(s)
    ensures Show(s).sent == AuxiliaryPaints(s) + HeadPackets(s.catalog, FirstIndex(s), s.layout.face, HeadSlots(s.layout))
  {
    DrawSlotsSent(s.catalog, FirstIndex(s), s.layout.face, HeadSlots(s.layout), s.headByKey, AuxiliaryRestores(s));
  }

  /** getHeadAtLocation after a show: a location in the head cell of slot
      `slot` yields the head of that slot on the current page, and nothing
      when the page has no head there. */
  lemma HeadAtShownSlot(s: Session, slot: int, at: Location)
    requires Valid(s) && Keyable(s.layout)
    requires 0 <= slot < PageSize(s.layout.params)
    requires at.world == s.layout.anchor.world && BlockOf(at) == HeadSlots(s.layout)[slot]
    ensures var index := FirstIndex(s) + slot;
            HeadAt(Show(s).session, at) == if 0 <= index < |s.catalog| then Some(s.catalog[index]) else None
  {
    var t := Show(s).session;
    var ps := PageSize(s.layout.params);
    assert t.layout == s.layout;
    ShowDrawsCurrentPage(s, slot);
    SlotDrawnHead(Drawn(t.headByKey, t.restoreByKey, []), s.catalog, FirstIndex(s), s.layout.face, HeadSlots(s.layout)[slot], slot, s.restoreByKey);
  }

  /** Manipulating a head cell after a show redraws the head shown there; for
      an empty slot it runs whatever routine the block had before the show,
      and re-sends the real block only if it never had one. */
  lemma ManipulatingHeadCell(s: Session, slot: int)
    requires Valid(s) && Keyable(s.layout)
    requires 0 <= slot < PageSize(s.layout.params)
    ensures var at := HeadSlots(s.layout)[slot];
            var index := FirstIndex(s) + slot;
            index < |s.catalog| ==>
              TryBlockManipulate(Show(s).session, at) == [BlockChange(at, PlayerHead(s.layout.face)), SkullTexture(at, s.catalog[index])]
    ensures var at := HeadSlots(s.layout)[slot];
            FirstIndex(s) + slot >= |s.catalog| ==> TryBlockManipulate(Show(s).session, at) == TryBlockManipulate(s, at)
  {
    var t := Show(s).session;
    var at := HeadSlots(s.layout)[slot];
    ShowDrawsCurrentPage(s, slot);
    ManipulatingDrawnSlot(t, s, FirstIndex(s), s.layout.face, at, slot);
  }

  /** Manipulating a block drawn as a slot: the slot's head when the index
      exists, otherwise what manipulating it did before. */
  lemma ManipulatingDrawnSlot(t: Session, s: Session, first: int, rotation: BlockFace, at: Block, slot: int)
    requires SlotDrawn(Drawn(t.headByKey, t.restoreByKey, []), s.catalog, first, rotation, at, slot, s.restoreByKey)
    ensures 0 <= first + slot < |s.catalog| ==>
              TryBlockManipulate(t, at) == [BlockChange(at, PlayerHead(rotation)), SkullTexture(at, s.catalog[first + slot])]
    ensures !(0 <= first + slot < |s.catalog|) ==> TryBlockManipulate(t, at) == TryBlockManipulate(s, at)
  {
  }

  /** After a slot showed a head, paging to a page where the slot is empty
      removes the head from the index, but the block keeps the old head's
      routine: manipulating it sends the old head again. */
  lemma ClearedSlotReplaysPreviousHead(s: Session, slot: int, page: int)
    requires Valid(s) && Keyable(s.layout)
    requires 0 <= slot < PageSize(s.layout.params)
    requires FirstIndex(s) + slot < |s.catalog|
    requires 0 <= page < Pages(s) && page * PageSize(s.layout.params) + slot >= |s.catalog|
    ensures var shown := Show(s).session;
            var later := Show(shown.(currentPage := page)).session;
            var at := HeadSlots(s.layout)[slot];
            var previous := s.catalog[FirstIndex(s) + slot];
            && Key(at) !in later.headByKey
            && TryBlockManipulate(later, at) == [BlockChange(at, PlayerHead(s.layout.face)), SkullTexture(at, previous)]
  {
    var ps := PageSize(s.layout.params);
    var at := HeadSlots(s.layout)[slot];
    var shown := Show(s).session;
    var moved := shown.(currentPage := page);
    var later := Show(moved).session;
    MulMono(0, page, ps);
    ManipulatingHeadCell(s, slot);
    assert TryBlockManipulate(moved, at) == TryBlockManipulate(shown, at);
    ManipulatingHeadCell(moved, slot);
    ShowDrawsCurrentPage(moved, slot);
  }

  /** After the first show, manipulating a wall cell repaints the wall
      material and manipulating a viewing-box cell repaints air. */
  lemma ManipulatingAuxiliaryCell(s: Session, b: Block)
    requires Valid(s) && Keyable(s.layout) && !s.auxiliaryPainted
    ensures b in Walls(s.layout) ==> TryBlockManipulate(Show(s).session, b) == [BlockChange(b, Plain(s.layout.params.wallType))]
    ensures b in Boxes(s.layout) ==> TryBlockManipulate(Show(s).session, b) == [BlockChange(b, Plain(Air))]
  {
    FirstShowPaintsAuxiliary(s);
  }

  /** A later show leaves the routines of wall and viewing-box cells as they
      were. */
  lemma LaterShowKeepsAuxiliary(s: Session, b: Block)
    requires Valid(s) && Keyable(s.layout) && s.auxiliaryPainted
    requires RoleOf(s.layout, b) == Some(WallCell) || RoleOf(s.layout, b) == Some(ViewingBoxCell)
    ensures TryBlockManipulate(Show(s).session, b) == TryBlockManipulate(s, b)
  {
    RoleKeysSeparate(s.layout, b);
    ShowFrame(s, Key(b));
  }

  /** A block outside the footprint (in key range) has no key of the footprint. */
  lemma KeyOutsideFootprint(g: Layout, b: Block)
    requires WellFormed(g) && Keyable(g) && InKeyRange(b) && RoleOf(g, b).None?
    ensures Key(b) !in KeysOf(Walls(g)) + KeysOf(Boxes(g)) + KeysOf(HeadSlots(g))
  {
    WallsAreWallCells(g);
    BoxesAreViewingBoxCells(g);
    HeadSlotsAreHeadCells(g);
    forall c | c in Walls(g) + Boxes(g) + HeadSlots(g)
      ensures Key(c) != Key(b)
    {
      RoleOfLocated(g, c);
      if Key(c) == Key(b) {
        KeyInjective(c, b);
      }
    }
  }

  /** Starting from empty indices, a show paints nothing outside the
      footprint: manipulating any other block re-sends the real block. */
  lemma ShowLeavesOutsideAlone(s: Session, b: Block)
    requires Valid(s) && Keyable(s.layout) && s.restoreByKey == map[]
    requires InKeyRange(b) && RoleOf(s.layout, b).None?
    ensures TryBlockManipulate(Show(s).session, b) == [BlockChange(b, Live)]
  {
    var g := s.layout;
    var ps := PageSize(g.params);
    KeyOutsideFootprint(g, b);
    var restores := AuxiliaryRestores(s);
    assert Key(b) !in restores;
    DrawSlotsFrame(s.catalog, FirstIndex(s), g.face, HeadSlots(g), s.headByKey, restores, Key(b));
  }

  /** A block is re-sent live by a close exactly when it is one of the given
      cells. */
  lemma ResyncCovers(cells: seq<Block>, b: Block)
    ensures BlockChange(b, Live) in Resync(cells) <==> b in cells
  {
    if b in cells {
      var i :| 0 <= i < |cells| && cells[i] == b;
      assert Resync(cells)[i] == BlockChange(b, Live);
    }
  }

  /** Closing a shown session re-sends the real block of every footprint cell
      (wall, head cells, viewing box) and of nothing else. */
  lemma CloseAfterShowRestoresFootprint(s: Session, b: Block)
    requires Valid(s)
    ensures BlockChange(b, Live) in Close(Show(s).session).sent <==> RoleOf(s.layout, b).Some?
  {
    var g := s.layout;
    assert Close(Show(s).session).sent == Resync(Walls(g)) + Resync(Boxes(g)) + Resync(HeadSlots(g));
    ResyncCovers(Walls(g), b);
    ResyncCovers(Boxes(g), b);
    ResyncCovers(HeadSlots(g), b);
    WallsAreWallCells(g);
    BoxesAreViewingBoxCells(g);
    HeadSlotsAreHeadCells(g);
  }
}

=== FILE: world.dfy ===
/** The vocabulary of the game world the head wall is drawn into: block faces,
    integer block positions, real-valued locations and the few materials the
    session and the registry distinguish. */
module World {

  /** A world is known by its identity only. */
  type WorldId = nat

  /** The axis-aligned values of Bukkit's BlockFace plus SELF. The twelve
      diagonal faces never reach the head-wall code and are not modelled. */
  datatype BlockFace = North | East | South | West | Up | Down | Self

  /** One step along a face, per axis: x grows to the east, y upwards and
      z to the south (BlockFace.getModX/Y/Z). */
  function ModX(f: BlockFace): int {
    match f
    case East => 1
    case West => -1
    case _ => 0
  }

  function ModY(f: BlockFace): int {
    match f
    case Up => 1
    case Down => -1
    case _ => 0
  }

  function ModZ(f: BlockFace): int {
    match f
    case South => 1
    case North => -1
    case _ => 0
  }

  /** The four horizontal faces a head wall can be built towards. */
  predicate IsCardinal(f: BlockFace) {
    f.North? || f.East? || f.South? || f.West?
  }

  /** BlockFace.getOppositeFace: the face pointing the other way. */
  function Opposite(f: BlockFace): (r: BlockFace)
    ensures ModX(r) == -ModX(f) && ModY(r) == -ModY(f) && ModZ(r) == -ModZ(f)
    ensures IsCardinal(r) <==> IsCardinal(f)
  {
    match f
    case North => South
    case South => North
    case East => West
    case West => East
    case Up => Down
    case Down => Up
    case Self => Self
  }

  /** A face is determined by its step vector. */
  lemma FaceDeterminedBySteps(a: BlockFace, b: BlockFace)
    requires ModX(a) == ModX(b) && ModY(a) == ModY(b) && ModZ(a) == ModZ(b)
    ensures a == b
  {
  }

  /** The opposite face is the only face whose steps are the negated steps. */
  lemma OppositeUnique(f: BlockFace, r: BlockFace)
    requires ModX(r) == -ModX(f) && ModY(r) == -ModY(f) && ModZ(r) == -ModZ(f)
    ensures r == Opposite(f)
  {
    FaceDeterminedBySteps(r, Opposite(f));
  }

  /** An integer block position (Location.getBlockX/Y/Z). */
  datatype Block = Block(x: int, y: int, z: int)

  /** A position in a world with real coordinates; the model does not round
      to double precision. */
  datatype Location = Location(world: WorldId, x: real, y: real, z: real)

  /** The block a location lies in: each coordinate rounded down. */
  function BlockOf(l: Location): Block {
    Block(l.x.Floor, l.y.Floor, l.z.Floor)
  }

  /** Location.add with whole-block offsets; the world is kept. */
  function Add(l: Location, dx: int, dy: int, dz: int): Location {
    l.(x := l.x + dx as real, y := l.y + dy as real, z := l.z + dz as real)
  }

  function Shift(b: Block, dx: int, dy: int, dz: int): Block {
    Block(b.x + dx, b.y + dy, b.z + dz)
  }

  /** The block `n` steps along face `f` from `b`. */
  function Step(b: Block, f: BlockFace, n: int): Block {
    Shift(b, ModX(f) * n, ModY(f) * n, ModZ(f) * n)
  }

  /** Whole-block offsets commute with rounding down: the block of a moved
      location is the moved block. */
  lemma BlockOfAdd(l: Location, dx: int, dy: int, dz: int)
    ensures BlockOf(Add(l, dx, dy, dz)) == Shift(BlockOf(l), dx, dy, dz)
  {
    FloorShift(l.x, dx);
    FloorShift(l.y, dy);
    FloorShift(l.z, dz);
  }

  lemma FloorShift(v: real, k: int)
    ensures (v + k as real).Floor == v.Floor + k
  {
  }

  /** Materials the head-wall code tells apart (Bukkit's Material). */
  datatype Material =
    | Air | CaveAir | VoidAir
    | CoalBlock
    | WaterBucket | LavaBucket
    | OtherBlock(name: string)
    | OtherItem(name: string)

  /** Material.isAir */
  predicate IsAir(m: Material) {
    m.Air? || m.CaveAir? || m.VoidAir?
  }

  /** Material.isBlock: the air variants count as blocks, as in Bukkit. */
  predicate IsBlock(m: Material) {
    IsAir(m) || m.CoalBlock? || m.OtherBlock?
  }
}

=== FILE: wrappers.dfy ===
/** The optional value used wherever the Java code returns a nullable reference. */
module Wrappers {

  datatype Option<+T> = None | Some(value: T)
}
